=== FILE: README.md ===
# csg — a Dafny model of polygon splitting and 2D BSP tree construction

The repository builds a two-dimensional binary space partitioning (BSP) tree
for a polygon. A *plane* is a line given by two points. A vertex is *left* of
it when the 2x2 determinant of the line's direction and the vertex's offset
is negative, *right* when it is positive, and *on* it when it is zero.

`splitPolygon` cuts a polygon by a plane into left and right *fragments*. It
works in five steps:

1. It inserts the points where the line crosses an edge. Before that it
   checks that neither endpoint is on the line, and it checks only the x
   coordinate against the edge's x-span.
2. It removes repeated vertices and tags every vertex with its index.
3. It gives the on-line vertices to a side by index adjacency.
4. It orders each side by index.
5. It cuts each side into the expected number of fragments with the
   `collectPolygons` fold.

`buildBSPT` splits by the first plane and recurses on each side. After a
bisection, each side takes its fragment's own non-planar edges as its planes.
When a side has several fragments, `mergeSubTrees` builds one tree per
fragment and joins them with nodes on the current plane.

The project also models the two earlier root-level versions:

- a `splitPolygon` that returns at most one polygon per side, built by
  concatenating vertex groups;
- a `buildBSPT` that never splits and instead sends the whole polygon to the
  side of its centroid.

Modules follow the source files:

| file | module | source |
|---|---|---|
| `wrappers.dfy` | `Wrappers` | `Option` and `Result` |
| `geometry.dfy` | `Geometry` | vertices, edges, determinant, classifiers, slope-intercept intersection (`src/splitPolygon.ts`, identical in the root `splitPolygon.ts`) |
| `seqs.dfy` | `Seqs` | `filter`, `uniqWith`, `flattenDepth` as sequence functions |
| `edges.dfy` | `Edges` | `getEdges` (`src/getEdges.ts`, identical in the root `splitPolygon.ts`) |
| `refine.dfy` | `Refine` | intersection insertion and de-duplication |
| `sides.dfy` | `Sides` | tagging, `hasAdjacentPoint`, side sequences, `orderBy` |
| `collect.dfy` | `Collect` | the `collectPolygons` fold |
| `split.dfy` | `Split` | `splitPolygon`, `planarEdgesOverlap`, the fragment-count dispatch |
| `csg.dfy` | `Csg` | `buildBSPT`, `mergeSubTrees` (`src/csg.ts`, `src/interfaces.ts`) |
| `proto_split.dfy` | `ProtoSplit` | the root-level `splitPolygon.ts` |
| `proto_csg.dfy` | `ProtoCsg` | the root-level `csg.ts` |

Coordinates are exact `real` numbers. A line with zero run has no slope; the
model gives it the form `Vertical`, which stands for JavaScript's infinite
slope. `buildBSPT` carries a `fuel` bound because its recursion has no
decreasing measure. It returns a `Result`. Its error `MissingPlane` stands
for an empty plane list. In the source, reading `planes[0]` from it gives
`undefined`, and the `TypeError` comes later, when `determinant` reads
`plane[1][0]` inside `splitPolygon` (src/splitPolygon.ts:217). Its error `OutOfFuel` comes only from the fuel bound.

The model exposes these behaviours of the source as proved statements:

- **Wrong length in `hasAdjacentPoint`.** The function is called with the
  original polygon's length, but the indices it compares come from the
  refined boundary (`Sides.HasAdjacentPointUsesOriginalLength`).
- **`collectPolygons` can overshoot.** After wrapping back to the first
  fragment, it can open more fragments than expected and can extend the
  wrong one (`Collect.CollectOvershootsAfterWrap`).
- **Y is never checked when subdividing.** For a vertical edge, the inserted
  point can lie off the segment (`Refine.VerticalEdgeSubdividedOffSegment`).
- **`mergeSubTrees` never succeeds.** It builds every fragment with an empty
  plane list, so it never yields a tree (`Csg.MergeSubTrees`). Any split
  with two or more fragments on one side makes the whole build fail
  (`Csg.BuildFailsOnLeftFragments`, `Csg.BuildFailsOnRightFragments`).
- **The root-level `splitPolygon` ignores the closing edge.** Its adjacency
  test does not wrap around (`ProtoSplit.ProtoFirstVertexNotNextToLast`).
- **The root-level `buildBSPT` has dead code.** It uses the opposite sign
  convention for "left", and its bisection branch can never run (the
  `assert false` in `ProtoCsg.ProtoBuild`).

Three details of the code are easy to misread:

- the x-span test is closed at both ends;
- the expected fragment count is computed from the number of on-plane
  vertices *after* refinement, including inserted ones;
- the trivial cases test the refined vertices, which have the same sides as
  the original ones (`Split.SplitPolygon`).

## Model

| member | source | states |
|---|---|---|
| Geometry.Determinant | src/splitPolygon.ts:214-223 | the determinant is zero at both points that define the plane, and for every point when those points coincide |
| Geometry.DeterminantReversed | src/splitPolygon.ts:202-223 | reversing the plane's direction negates the determinant, swapping left and right and keeping the on-plane points |
| Geometry.Classify | src/splitPolygon.ts:202-223 | every point is exactly one of left (determinant < 0), right (> 0) or on the plane (= 0) |
| Geometry.PlaneEndpointsOnPlane | splitPolygon.ts:160-181 | both points that define a plane classify as on it |
| Geometry.SlopeInterceptForm | src/splitPolygon.ts:226-234 | the form is vertical exactly when the run is zero; otherwise slope times run is the rise and the tail satisfies `y = m x + b` |
| Geometry.Intersection | src/splitPolygon.ts:236-251 | no point exactly when both lines are vertical or both are sloped with equal slopes, whatever the intercepts; against a vertical line the point's x is that line's x |
| Geometry.SlopedMeet | src/splitPolygon.ts:252-256 | for two sloped lines with different slopes, the point solved from the intercepts (y taken from the first line) satisfies both line equations |
| Geometry.IntersectionOnBothLines | src/splitPolygon.ts:239-257 | any point returned lies on both lines (determinant zero against each) |
| Geometry.IntersectionNoneIffParallel | src/splitPolygon.ts:239-240 | for two proper segments no point is returned exactly when their directions are parallel |
| Seqs.FilterInOrder | src/splitPolygon.ts:12 | `filter` keeps the survivors in their input order: the result reads the input at strictly ascending positions, and those positions are exactly the passing ones |
| Seqs.Dedup | src/splitPolygon.ts:13-39 | `uniqWith`: same members as the input, pairwise distinct, the first element kept first, and the kept elements in the order of their first occurrences in the input |
| Seqs.DedupKeepsOrder | src/splitPolygon.ts:13-39 | an element that first occurs before another in the input also comes before it in the de-duplicated result |
| Edges.GetEdges | src/getEdges.ts:3-11 | one edge per vertex (so none for an empty polygon); edge `i` runs from vertex `i` to the next vertex around the loop |
| Edges.EdgesFormCycle | src/getEdges.ts:7 | each edge's head is the next edge's tail, and the last edge closes the loop to vertex 0 |
| Edges.EdgesRoundTrip | splitPolygon.ts:149-158 | the tails read back the polygon and the heads read back the polygon rotated by one |
| Refine.EdgePieces | src/splitPolygon.ts:15-35 | an edge gives its endpoints, or its endpoints around a crossing point; the point is on the plane and the edge's line, within the x-span, and only for edges with no on-plane endpoint |
| Refine.FlatPiecesContents | src/splitPolygon.ts:14-37 | the flattened pieces are exactly the polygon's vertices and the crossing points of the subdivided edges (all on the plane), and start with the first vertex |
| Refine.RefinePolygon | src/splitPolygon.ts:12-39 | a point is on the refined boundary exactly when it is an original vertex or the crossing inserted into a subdivided edge; added points are on the plane, nothing repeats, and it starts at `p[0]` |
| Refine.RefineKeepsVertexOrder | src/splitPolygon.ts:13-39 | for a polygon with distinct vertices and no crossing on a vertex, the original vertices appear in the refined boundary in their order around the polygon |
| Refine.RefinePlacesCrossing | src/splitPolygon.ts:14-37 | under the same conditions, a crossing first produced by edge `k` comes after vertex `k` and, unless edge `k` is the closing edge, before vertex `k + 1` |
| Refine.SubdividedIff | src/splitPolygon.ts:16-30 | an edge is subdivided exactly when neither endpoint is on the plane, an intersection exists and its x is inside the closed x-span |
| Refine.SubdivisionOfSlopedEdgeOnSegment | src/splitPolygon.ts:26-30 | for a non-vertical edge the x test suffices: the inserted point lies on the segment |
| Refine.VerticalEdgeSubdividedOffSegment | src/splitPolygon.ts:26-30 | for a vertical edge the y coordinate is never checked: (5,1)-(5,2) against y = 0 gets the point (5,0), off the segment |
| Sides.WithIndices | src/splitPolygon.ts:42-44 | a tagged vertex is present exactly when its index is in range and its point is stored there; indices increase |
| Sides.HasAdjacentPoint | src/splitPolygon.ts:62-74 | true exactly when some vertex is at index distance one, or the queried index is the given length minus one and the list is non-empty; no wrap-around |
| Sides.HasAdjacentPointUsesOriginalLength | src/splitPolygon.ts:62-92 | with 4 original and 5 refined vertices, index 3 counts as adjacent to index 0 and index 4 does not |
| Sides.SideVertices | src/splitPolygon.ts:46-52 | exactly the tagged vertices of the given side, in order |
| Sides.Assigned | src/splitPolygon.ts:76-92 | exactly the on-plane vertices present in the original polygon that pass `hasAdjacentPoint` against the side, in order |
| Sides.NewVertices | src/splitPolygon.ts:76-94 | exactly the on-plane vertices not in the original polygon, in order |
| Sides.OrderByIndex | src/splitPolygon.ts:96-106 | every output element is an input element with an index below the bound (order and permutation in the next rows) |
| Sides.OrderByIndexIsPermutation | src/splitPolygon.ts:96-106 | `orderBy` on index keeps exactly the input elements (as a multiset) |
| Sides.OrderByIndexSorted | src/splitPolygon.ts:96-106 | `orderBy` output has non-decreasing indices |
| Sides.OrderByIndexStrict | src/splitPolygon.ts:96-106 | with distinct indices the output indices strictly increase |
| Sides.SideSequenceMembers | src/splitPolygon.ts:76-106 | a side sequence holds exactly the side's vertices, the adjacent on-plane originals and all new vertices, nothing from the opposite side, each once |
| Sides.SideSequenceOrdered | src/splitPolygon.ts:96-106 | a side sequence is strictly ascending in index |
| Collect.CollectStep | src/splitPolygon.ts:169-192 | the first element opens fragment `[0]`; each later position is appended to exactly one fragment, all others unchanged: the current one while the index run continues, else a new fragment, or the first one when the current fragment is the last expected one |
| Collect.CollectPrefix | src/splitPolygon.ts:169-195 | the fold keeps `currPolygon` on an existing fragment; fragments are non-empty, increasing, hold only positions already read, and the first starts at position 0 |
| Collect.CollectPolygons | src/splitPolygon.ts:165-200 | empty input gives no fragment; fragments are non-empty, hold input points only, and the first starts with the first vertex |
| Collect.CollectPartitions | src/splitPolygon.ts:169-195 | every input position lands in exactly one fragment |
| Collect.CollectOneIsWhole | src/splitPolygon.ts:165-200 | with one fragment expected, the result is the single fragment of all points in order |
| Collect.CollectCountBound | src/splitPolygon.ts:175-192 | there is never more than one fragment per index break plus one |
| Collect.CollectWithoutWrap | src/splitPolygon.ts:175-192 | with fewer breaks than fragments expected, there is exactly one fragment per break plus one, each a run of consecutive positions |
| Collect.CollectOvershootsAfterWrap | src/splitPolygon.ts:182-192 | with 2 expected, indices 0 1 3 4 6 8 9 give three fragments, and 9 joins the fragment of 3 and 4 |
| Split.OverlapNeedsTwoEdges | src/splitPolygon.ts:140-163 | overlap holds exactly when one edge strictly contains a different one, so never for fewer than two edges |
| Split.PlanarEdges | src/splitPolygon.ts:108-110 | exactly the edges of the side's boundary with both endpoints on the plane |
| Split.SplitTrivialCases | src/splitPolygon.ts:54-60 | no left vertex gives `{left: [], right: [p]}` (a polygon on the plane included); otherwise no right vertex gives `{left: [p], right: []}` |
| Split.SplitPolygon | src/splitPolygon.ts:8-60 | the left result is empty exactly when no vertex is strictly left; the right exactly when some vertex is left and none right (the rest of its behaviour in `SplitTrivialCases`, `SplitKeepsSides` and `SplitDispatch`) |
| Split.SplitKeepsSides | src/splitPolygon.ts:96-137 | no vertex of a left fragment is strictly right, and no vertex of a right fragment strictly left |
| Split.SplitDispatch | src/splitPolygon.ts:108-137 | an overlapping left side gets `floor((onPlane - 1) / 2)` fragments and the right one whole fragment; else the same swapped; else one whole fragment each |
| Split.TriangleOnOneSideNotSplit | tests/splitPolygon.spec.ts:4-11 | the triangle (0,0), (0,5), (5,0) against the line through (0,5) and (0,0) comes back whole on the right |
| Csg.NonPlanarEdges | src/csg.ts:26-29 | exactly the polygon's edges with an endpoint off the plane, in boundary order: the result reads the edge list at ascending positions, which are exactly the non-planar edges |
| Csg.NextPlaneIsFirstNonPlanarEdge | src/csg.ts:12-33 | the first plane a fragment is built with after a bisection is its first edge, in boundary order, with an endpoint off the current plane; every edge before it lies on that plane |
| Csg.BuildBSPT | src/csg.ts:11-60 | an empty plane list is an error; a built tree is a node on `planes[0]`, at most `fuel` deep |
| Csg.BuildFromSplit | src/csg.ts:15-59 | after the split, a built tree is a node on the splitting plane, at most `fuel` deep |
| Csg.BuildChildren | src/csg.ts:31-59 | outside the terminal case, a built tree is a node on the splitting plane over the two sides' subtrees, at most `fuel` deep |
| Csg.BuildSide | src/csg.ts:41-53 | no fragment gives `"in"`/`"out"`, more than one always fails, a result is at most `fuel` deep |
| Csg.BuildEach | src/csg.ts:63-66 | one tree per fragment on success, and failure for any fragment when the plane list is empty |
| Csg.MergeSubTrees | src/csg.ts:62-87 | always fails with `MissingPlane`: every fragment is built with an empty plane list |
| Csg.PairNodes | src/csg.ts:68-75 | `ceil(k / 2)` nodes, all on the given plane |
| Csg.UnpairPairNodes | src/csg.ts:68-75 | reading the pair nodes' children back gives the trees in order, plus one `"out"` when `k` is odd |
| Csg.FoldNodes | src/csg.ts:77-84 | the fold gives no tree exactly when there are no nodes |
| Csg.FoldNodesRoundTrip | src/csg.ts:77-84 | unfolding the left spine gives the nodes back in order, and every joining node is on the plane |
| Csg.CombineTreesShape | src/csg.ts:68-86 | combining `k > 0` trees gives a spine of `ceil(k / 2)` pair nodes on the plane whose children are the trees in order, padded with `"out"` |
| Csg.BuildPassesWholePolygonRight | src/csg.ts:31-53 | a plane with nothing on its left passes the whole polygon right with `planes[1..]`, left slot `"in"` |
| Csg.BuildPassesWholePolygonLeft | src/csg.ts:31-53 | a plane with nothing on its right passes the whole polygon left with `planes[1..]`, right slot `"out"` |
| Csg.BuildLastPlaneOneSided | src/csg.ts:17-23 | with the last plane and a one-sided polygon the result is `{plane, "in", "out"}` |
| Csg.BuildFailsOnLeftFragments | src/csg.ts:41-46 | two or more left fragments make the build fail with `MissingPlane` |
| Csg.BuildFailsOnRightFragments | src/csg.ts:48-53 | two or more right fragments make the build fail |
| Csg.BuildBisected | src/csg.ts:31-59 | on a bisection each fragment is built with its own non-planar edges and the two results become the children |
| ProtoSplit.HasNeighbour | splitPolygon.ts:48-54 | true exactly when some vertex is at index distance one; no wrap, no last-index case |
| ProtoSplit.AssignedTo | splitPolygon.ts:56-62 | exactly the on-plane vertices with a neighbour on the side, with indices strictly increasing whenever the input's are |
| ProtoSplit.Candidates | splitPolygon.ts:69-76 | exactly the edges with neither endpoint on the plane, in boundary order: the result reads the edge list at ascending positions, which are exactly those edges |
| ProtoSplit.Crossing | splitPolygon.ts:80-94 | a crossing is kept exactly when the intersection exists within the closed x-span; it is on the plane and the edge's line |
| ProtoSplit.CrossingPoints | splitPolygon.ts:80-95 | exactly the kept crossings of the candidate edges, in edge order: the k-th point is the crossing of the k-th edge that has one |
| ProtoSplit.ProtoSplitPolygon | splitPolygon.ts:8-112 | no left vertex gives `{undefined, p}`; else no right vertex gives `{p, undefined}`; else each side is its strict vertices, then its assigned on-plane vertices, then all the crossings |
| ProtoSplit.ProtoSidesMatchPolygon | splitPolygon.ts:20-38 | a side's tagged list is empty exactly when no vertex is on that side |
| ProtoSplit.ProtoSideKeepsOwnVertices | splitPolygon.ts:97-106 | every vertex on a side appears in that side's polygon |
| ProtoSplit.ProtoSideHoldsNothingOpposite | splitPolygon.ts:97-106 | a side's polygon holds only that side's vertices and on-plane points |
| ProtoSplit.ProtoSidesShareCrossings | splitPolygon.ts:97-106 | both side polygons end with the same crossing points |
| ProtoSplit.ProtoFirstVertexNotNextToLast | splitPolygon.ts:48-62 | an on-plane first vertex is not assigned to the last vertex's side although the closing edge joins them |
| ProtoCsg.CentroidDeterminant | csg.ts:14-36 | the centroid's determinant is the mean of the corners' determinants |
| ProtoCsg.ProtoBuild | csg.ts:20-74 | the result is a node on `planes[0]` with at most one level per plane, and a single plane gives `{plane, "in", "out"}` |
| ProtoCsg.ProtoBuildIsCentroidPath | csg.ts:42-64 | the tree is one path following the centroid's side, using the planes in order, stopping early only at a plane through the centroid; the other slot at each level is that side's leaf, and the path ends in `{plane, "in", "out"}` |
| ProtoCsg.TriangleStaysOnItsSide | csg.ts:24-43 | a triangle with all three corners on the positive side has its centroid there and is sent left |
| ProtoCsg.DriverTriangleTree | csg.ts:6-12 | the driver's triangle and edges build `{ab, {bc, {ac, in, out}, out}, out}` |

## Left out

- Floating point: coordinates are exact reals, so IEEE rounding, `NaN` and
  `Infinity` are not modelled. Two vertical lines count as parallel. In the
  source, opposite infinite slopes compare unequal and give `NaN`
  coordinates. A zero-length edge is treated as vertical; in the source its
  slope is `NaN`.
- gl-matrix and lodash are not modelled as libraries. The determinant
  formula, `uniqWith`, `flattenDepth`, `orderBy`, `chunk`, `max` and `min`
  are written out directly.
- The reference-equality `includes` is modelled as value membership. The two
  agree here, because being on the plane depends only on coordinates.
- The module-level drivers and their console output are not modelled, except
  as the concrete lemma `ProtoCsg.DriverTriangleTree`.
- Csg.BuildBSPT: the recursion is bounded by `fuel` and reports `OutOfFuel`
  when the bound runs out. The source has no such bound, and its bisecting
  path has no decreasing measure.
- Csg.BuildBSPT: with an empty polygon and an empty plane list, the source
  never reads the plane and returns a node whose plane is `undefined`. The
  model reports `MissingPlane` for every empty plane list. Fragments are
  never empty, so `mergeSubTrees` is unaffected.
- Sides.OrderByIndexSorted: the stability of `orderBy` among equal indices
  is not stated. On the side sequences all indices are distinct
  (`Sides.OrderByIndexStrict`), so stability is never observable there.
- The second and third cases of `tests/splitPolygon.spec.ts` (lines 13-53)
  are not stated as concrete lemmas. The rule they exercise is
  `Split.SplitDispatch`. The third case's expected coordinates are
  floating-point roundings.
- Refine.EdgePieces: a zero-length edge is treated as vertical. Its line
  then meets a sloped plane, and the model inserts that point whenever it
  passes the x test; for example `EdgePieces(Edge((3,1),(3,1)), Edge((0,0),(1,0)), [])`
  is `[(3,1), (3,0), (3,0), (3,1)]`. In the source the slope is `NaN`, the
  intersection is `[NaN, NaN]`, and it passes the x test because every
  comparison with `NaN` is false. That point is then neither left, right nor
  on the plane, yet it occupies an index of the refined boundary, so it
  breaks the index runs that `collectPolygons` relies on.
- Refine.RefineKeepsVertexOrder: stated only for polygons with distinct
  vertices and no crossing on a vertex. Otherwise de-duplication keeps a
  repeated vertex at its first occurrence, and the original order is not
  preserved in general.
- Refine.RefinePlacesCrossing: stated only for a crossing that no earlier
  edge produced, under the same conditions. A crossing equal to an earlier
  one is kept at its earlier place.
- ProtoCsg.ProtoBuild: requires at least three vertices and one plane. With
  fewer, the source reads `undefined` and throws.
- ProtoSplit.ProtoFirstVertexNotNextToLast: states that the vertex is not
  assigned. It does not state that the vertex is missing from the side's
  polygon, because a crossing point could coincide with it.

=== FILE: collect.dfy ===
/** `collectPolygons`: cut an index-ordered side sequence into fragments,
    opening a new fragment at every break in the index run and wrapping back
    to the first fragment once the expected number is reached. */
module Collect {
  import opened Geometry
  import opened Seqs
  import opened Sides

  /** The reduce accumulator. A fragment is recorded by the POSITIONS of its
      vertices in the input sequence; the points are read off at the end. */
  datatype CollectState = CollectState(currPolygon: int, polygons: seq<seq<nat>>)

  /** The fold over the first `k` input elements. The state stays usable:
      once anything is collected, `currPolygon` indexes an existing fragment
      (so `polygons[currPolygon].push` never meets a missing fragment);
      fragments are non-empty, hold earlier positions only, in increasing
      order; and the first fragment starts at position 0. */
  function CollectPrefix(numExpected: int, src: seq<Tagged>, k: nat): (acc: CollectState)
    requires k <= |src|
    ensures k == 0 ==> acc == CollectState(0, [])
    ensures k > 0 ==> 0 <= acc.currPolygon < |acc.polygons|
    ensures forall j :: 0 <= j < |acc.polygons| ==> |acc.polygons[j]| > 0
    ensures forall j, m :: 0 <= j < |acc.polygons| && 0 <= m < |acc.polygons[j]| ==>
      acc.polygons[j][m] < k
    ensures forall j, a, b :: 0 <= j < |acc.polygons| && 0 <= a < b < |acc.polygons[j]| ==>
      acc.polygons[j][a] < acc.polygons[j][b]
    ensures k > 0 ==> acc.polygons[0][0] == 0
    decreases k
  {
    if k == 0 then CollectState(0, [])
    else CollectStep(CollectPrefix(numExpected, src, k - 1), numExpected, src, k - 1)
  }

  /** Position `i` is appended to exactly one fragment, either a new last
      one or an existing one, and every other fragment is unchanged. */
  ghost predicate AppendedOnce(before: seq<seq<nat>>, after: seq<seq<nat>>, i: nat)
  {
    || after == before + [[i]]
    || exists j :: 0 <= j < |before| && after == before[j := before[j] + [i]]
  }

  /** The reduce callback for the element at position `i`. The first
      element opens the first fragment. Every later one is appended to a
      single fragment: the current one while the index run continues; at a
      break, a newly opened fragment, or the first one again once the
      current fragment is the last expected one. */
  function CollectStep(acc: CollectState, numExpected: int, src: seq<Tagged>, i: nat): (r: CollectState)
    requires i < |src|
    requires i > 0 ==> 0 <= acc.currPolygon < |acc.polygons|
    ensures i == 0 ==> r.polygons == [[0]]
    ensures i > 0 ==> 0 <= r.currPolygon < |r.polygons| && AppendedOnce(acc.polygons, r.polygons, i)
    ensures i > 0 && src[i].i == src[i - 1].i + 1 ==>
      r.currPolygon == acc.currPolygon && r.polygons[r.currPolygon] == acc.polygons[acc.currPolygon] + [i]
    ensures i > 0 && src[i].i != src[i - 1].i + 1 ==>
      (r.currPolygon == 0 <==> acc.currPolygon == numExpected - 1)
    ensures i > 0 && src[i].i != src[i - 1].i + 1 && acc.currPolygon == numExpected - 1 ==>
      r.polygons[0] == acc.polygons[0] + [i]
    ensures i > 0 && src[i].i != src[i - 1].i + 1 && acc.currPolygon != numExpected - 1 ==>
      r.polygons == acc.polygons + [[i]]
  {
    if i == 0 then
      CollectState(acc.currPolygon, [[i]])
    else if src[i].i == src[i - 1].i + 1 then
      // the vertex follows the previous one: extend the current fragment
      CollectState(acc.currPolygon,
        acc.polygons[acc.currPolygon := acc.polygons[acc.currPolygon] + [i]])
    else if acc.currPolygon == numExpected - 1 then
      // all expected fragments are open: wrap back into the first one
      CollectState(0, acc.polygons[0 := acc.polygons[0] + [i]])
    else
      CollectState(acc.currPolygon + 1, acc.polygons + [[i]])
  }

  /** The fragments of `vertices`, as points. Every fragment is non-empty,
      and the first one starts with the first vertex. */
  function CollectPolygons(numExpected: int, vertices: seq<Tagged>): (r: seq<Polygon>)
    ensures |vertices| == 0 ==> r == []
    ensures forall j :: 0 <= j < |r| ==> |r[j]| > 0
    ensures |vertices| > 0 ==> |r| > 0 && r[0][0] == vertices[0].point
    ensures forall j, m :: 0 <= j < |r| && 0 <= m < |r[j]| ==> r[j][m] in Points(vertices)
  {
    var polygons := CollectPrefix(numExpected, vertices, |vertices|).polygons;
    var pts := Points(vertices);
    var r := seq(|polygons|, j requires 0 <= j < |polygons| =>
      seq(|polygons[j]|, m requires 0 <= m < |polygons[j]| => vertices[polygons[j][m]].point));
    assert forall j, m :: 0 <= j < |r| && 0 <= m < |r[j]| ==> r[j][m] == pts[polygons[j][m]];
    r
  }

  /** One step adds its own position to the fragments and nothing else. */
  lemma CollectStepAddsPosition(acc: CollectState, numExpected: int, src: seq<Tagged>, i: nat)
    requires i < |src|
    requires i > 0 ==> 0 <= acc.currPolygon < |acc.polygons|
    requires i == 0 ==> acc.polygons == []
    ensures multiset(Concat(CollectStep(acc, numExpected, src, i).polygons))
         == multiset(Concat(acc.polygons)) + multiset{i}
  {
    var polygons := CollectStep(acc, numExpected, src, i).polygons;
    if i == 0 {
      assert Concat(polygons) == Concat(polygons[..0]) + [i];
    } else if src[i].i == src[i - 1].i + 1 {
      ConcatUpdateAppend(acc.polygons, acc.currPolygon, i);
    } else if acc.currPolygon == numExpected - 1 {
      ConcatUpdateAppend(acc.polygons, 0, i);
    } else {
      assert polygons[..|acc.polygons|] == acc.polygons;
    }
  }

  /** Every input position lands in exactly one fragment, exactly once. */
  lemma {:induction false} CollectPartitions(numExpected: int, src: seq<Tagged>, k: nat)
    requires k <= |src|
    ensures multiset(Concat(CollectPrefix(numExpected, src, k).polygons)) == multiset(Range(k))
    decreases k
  {
    if k > 0 {
      CollectPartitions(numExpected, src, k - 1);
      var acc := CollectPrefix(numExpected, src, k - 1);
      assert CollectPrefix(numExpected, src, k) == CollectStep(acc, numExpected, src, k - 1);
      CollectStepAddsPosition(acc, numExpected, src, k - 1);
      RangeStep(k - 1);
    }
  }

  /** With one expected fragment every break wraps straight back, so the
      positions form one fragment holding all of them in order. */
  lemma {:induction false} CollectOnePrefix(src: seq<Tagged>, k: nat)
    requires 0 < k <= |src|
    ensures CollectPrefix(1, src, k) == CollectState(0, [Range(k)])
    decreases k
  {
    if k > 1 {
      CollectOnePrefix(src, k - 1);
      RangeStep(k - 1);
    } else {
      assert [0] == Range(1);
    }
  }

  /** `collectPolygons(1, vertices)` is the whole input as one fragment. */
  lemma CollectOneIsWhole(vertices: seq<Tagged>)
    requires |vertices| > 0
    ensures CollectPolygons(1, vertices) == [Points(vertices)]
  {
    CollectOnePrefix(vertices, |vertices|);
    var r := CollectPolygons(1, vertices);
    assert |r| == 1;
    assert r[0] == Points(vertices);
  }

  /** The number of breaks among the first `k` elements: positions whose index
      does not follow the previous position's index. */
  function Breaks(src: seq<Tagged>, k: nat): nat
    requires k <= |src|
  {
    if k <= 1 then 0
    else Breaks(src, k - 1) + (if src[k - 1].i == src[k - 2].i + 1 then 0 else 1)
  }

  /** A break opens at most one fragment, so there are at most one more
      fragments than breaks. */
  lemma {:induction false} CollectCountBound(numExpected: int, src: seq<Tagged>, k: nat)
    requires 0 < k <= |src|
    ensures |CollectPrefix(numExpected, src, k).polygons| <= 1 + Breaks(src, k)
    decreases k
  {
    if k > 1 {
      CollectCountBound(numExpected, src, k - 1);
    }
  }

  /** Without a wrap the current fragment is the newest one, its number is
      the number of breaks so far, and it ends at the last position seen. */
  lemma {:induction false} CollectWithoutWrapCount(numExpected: int, src: seq<Tagged>, k: nat)
    requires 0 < k <= |src|
    requires numExpected <= 0 || Breaks(src, k) < numExpected
    ensures var acc := CollectPrefix(numExpected, src, k);
      && |acc.polygons| == 1 + Breaks(src, k)
      && acc.currPolygon == Breaks(src, k)
      && acc.polygons[acc.currPolygon][|acc.polygons[acc.currPolygon]| - 1] == k - 1
    decreases k
  {
    if k > 1 {
      CollectWithoutWrapCount(numExpected, src, k - 1);
    }
  }

  /** Each fragment is a run of consecutive positions. */
  predicate ConsecutiveRuns(polygons: seq<seq<nat>>)
  {
    forall j, m :: 0 <= j < |polygons| && 0 <= m < |polygons[j]| - 1 ==>
      polygons[j][m + 1] == polygons[j][m] + 1
  }

  /** Extending a fragment that ends at `i - 1` with `i` keeps every
      fragment a run. */
  lemma ExtendKeepsRuns(polygons: seq<seq<nat>>, c: nat, i: nat)
    requires ConsecutiveRuns(polygons)
    requires c < |polygons| && |polygons[c]| > 0 && polygons[c][|polygons[c]| - 1] + 1 == i
    ensures ConsecutiveRuns(polygons[c := polygons[c] + [i]])
  {
    var extended := polygons[c := polygons[c] + [i]];
    forall j, m | 0 <= j < |extended| && 0 <= m < |extended[j]| - 1
      ensures extended[j][m + 1] == extended[j][m] + 1
    {
      if j == c && m == |polygons[c]| - 1 {
        assert extended[j][m] == i - 1;
      } else if j == c {
        assert extended[j][m] == polygons[c][m];
        assert extended[j][m + 1] == polygons[c][m + 1];
      }
    }
  }

  /** Opening a fresh one-position fragment keeps every fragment a run. */
  lemma OpenKeepsRuns(polygons: seq<seq<nat>>, i: nat)
    requires ConsecutiveRuns(polygons)
    ensures ConsecutiveRuns(polygons + [[i]])
  {
    var grown := polygons + [[i]];
    forall j, m | 0 <= j < |grown| && 0 <= m < |grown[j]| - 1
      ensures grown[j][m + 1] == grown[j][m] + 1
    {
      assert j < |polygons|;
      assert grown[j] == polygons[j];
    }
  }

  /** A step that does not wrap keeps every fragment a run, provided the
      current fragment is the newest one and ends at the previous position. */
  lemma CollectStepKeepsRuns(acc: CollectState, numExpected: int, src: seq<Tagged>, i: nat)
    requires 0 < i < |src|
    requires ConsecutiveRuns(acc.polygons)
    requires 0 <= acc.currPolygon == |acc.polygons| - 1
    requires |acc.polygons[acc.currPolygon]| > 0
    requires acc.polygons[acc.currPolygon][|acc.polygons[acc.currPolygon]| - 1] == i - 1
    requires src[i].i != src[i - 1].i + 1 ==> acc.currPolygon != numExpected - 1
    ensures ConsecutiveRuns(CollectStep(acc, numExpected, src, i).polygons)
  {
    var c := acc.currPolygon;
    if src[i].i == src[i - 1].i + 1 {
      assert CollectStep(acc, numExpected, src, i).polygons == acc.polygons[c := acc.polygons[c] + [i]];
      ExtendKeepsRuns(acc.polygons, c, i);
    } else {
      assert CollectStep(acc, numExpected, src, i).polygons == acc.polygons + [[i]];
      OpenKeepsRuns(acc.polygons, i);
    }
  }

  /** Without a wrap every fragment is a run of consecutive positions. */
  lemma {:induction false} CollectWithoutWrapRuns(numExpected: int, src: seq<Tagged>, k: nat)
    requires 0 < k <= |src|
    requires numExpected <= 0 || Breaks(src, k) < numExpected
    ensures ConsecutiveRuns(CollectPrefix(numExpected, src, k).polygons)
    decreases k
  {
    if k > 1 {
      assert Breaks(src, k - 1) <= Breaks(src, k);
      CollectWithoutWrapRuns(numExpected, src, k - 1);
      CollectPrefixKeepsRuns(numExpected, src, k);
    } else {
      assert CollectPrefix(numExpected, src, 1).polygons == [[0]];
    }
  }

  /** The step from `k - 1` to `k` elements keeps every fragment a run
      while the fold has not wrapped. */
  lemma CollectPrefixKeepsRuns(numExpected: int, src: seq<Tagged>, k: nat)
    requires 1 < k <= |src|
    requires numExpected <= 0 || Breaks(src, k) < numExpected
    requires ConsecutiveRuns(CollectPrefix(numExpected, src, k - 1).polygons)
    ensures ConsecutiveRuns(CollectPrefix(numExpected, src, k).polygons)
  {
    NoWrapBeforeStep(numExpected, src, k);
    var acc := CollectPrefix(numExpected, src, k - 1);
    CollectStepKeepsRuns(acc, numExpected, src, k - 1);
    assert CollectPrefix(numExpected, src, k) == CollectStep(acc, numExpected, src, k - 1);
  }

  /** Before a step that stays within the expected count, the current
      fragment is the newest one, ends at the previous position, and a break
      here does not find the last expected fragment open. */
  lemma NoWrapBeforeStep(numExpected: int, src: seq<Tagged>, k: nat)
    requires 1 < k <= |src|
    requires numExpected <= 0 || Breaks(src, k) < numExpected
    ensures var acc := CollectPrefix(numExpected, src, k - 1);
      && 0 <= acc.currPolygon == |acc.polygons| - 1
      && |acc.polygons[acc.currPolygon]| > 0
      && acc.polygons[acc.currPolygon][|acc.polygons[acc.currPolygon]| - 1] == k - 2
      && (src[k - 1].i != src[k - 2].i + 1 ==> acc.currPolygon != numExpected - 1)
  {
    var brk := if src[k - 1].i == src[k - 2].i + 1 then 0 else 1;
    assert Breaks(src, k) == Breaks(src, k - 1) + brk;
    CollectWithoutWrapCount(numExpected, src, k - 1);
  }

  /** When fewer breaks occur than fragments are expected (or nothing is
      expected) the fold never wraps: every break opens a fresh fragment,
      each fragment is a run of consecutive positions, and there is exactly
      one fragment more than there are breaks. */
  lemma CollectWithoutWrap(numExpected: int, src: seq<Tagged>, k: nat)
    requires 0 < k <= |src|
    requires numExpected <= 0 || Breaks(src, k) < numExpected
    ensures |CollectPrefix(numExpected, src, k).polygons| == 1 + Breaks(src, k)
    ensures ConsecutiveRuns(CollectPrefix(numExpected, src, k).polygons)
  {
    CollectWithoutWrapCount(numExpected, src, k);
    CollectWithoutWrapRuns(numExpected, src, k);
  }

  /** After a wrap a later break no longer compares equal to
      `numExpected - 1`, so the fold opens fragments beyond the expected
      number and resumes extending an OLD fragment: with two fragments
      expected, indices 0 1 3 4 6 8 9 give three fragments, and 9 joins the
      fragment of 3 and 4 rather than that of 8. */
  lemma CollectOvershootsAfterWrap()
    ensures var v := Vertex(0.0, 0.0);
      var src := [Tagged(v, 0), Tagged(v, 1), Tagged(v, 3), Tagged(v, 4), Tagged(v, 6), Tagged(v, 8), Tagged(v, 9)];
      CollectPrefix(2, src, 7).polygons == [[0, 1, 4], [2, 3, 6], [5]]
  {
    var src := OvershootSource();
    OvershootFirstSteps();
    var s4 := CollectState(1, [[0, 1], [2, 3]]);
    var s5 := CollectState(0, [[0, 1, 4], [2, 3]]);
    var s6 := CollectState(1, [[0, 1, 4], [2, 3], [5]]);
    assert CollectStep(s4, 2, src, 4) == s5 by {
      assert [0, 1] + [4] == [0, 1, 4];
      assert [[0, 1], [2, 3]][0 := [0, 1, 4]] == [[0, 1, 4], [2, 3]];
    }
    assert CollectPrefix(2, src, 5) == s5;
    assert CollectPrefix(2, src, 6) == s6;
    assert CollectStep(s6, 2, src, 6).polygons == [[0, 1, 4], [2, 3, 6], [5]] by {
      assert [2, 3] + [6] == [2, 3, 6];
      assert [[0, 1, 4], [2, 3], [5]][1 := [2, 3, 6]] == [[0, 1, 4], [2, 3, 6], [5]];
    }
  }

  /** The indices 0 1 3 4 6 8 9, all at the origin. */
  function OvershootSource(): seq<Tagged>
  {
    var v := Vertex(0.0, 0.0);
    [Tagged(v, 0), Tagged(v, 1), Tagged(v, 3), Tagged(v, 4), Tagged(v, 6), Tagged(v, 8), Tagged(v, 9)]
  }

  /** The first four steps of the overshoot example open two fragments. */
  lemma OvershootFirstSteps()
    ensures CollectPrefix(2, OvershootSource(), 4) == CollectState(1, [[0, 1], [2, 3]])
  {
    var src := OvershootSource();
    assert CollectPrefix(2, src, 1) == CollectState(0, [[0]]);
    assert [0] + [1] == [0, 1];
    assert [[0]][0 := [0, 1]] == [[0, 1]];
    assert CollectPrefix(2, src, 2) == CollectState(0, [[0, 1]]);
    assert CollectPrefix(2, src, 3) == CollectState(1, [[0, 1], [2]]);
    assert [2] + [3] == [2, 3];
    assert [[0, 1], [2]][1 := [2, 3]] == [[0, 1], [2, 3]];
  }
}

=== FILE: csg.dfy ===
/** `buildBSPT` and `mergeSubTrees`: build a BSP tree by splitting against
    the first remaining plane and recursing on each side's fragments. */
module Csg {
  import opened Wrappers
  import opened Geometry
  import opened Seqs
  import opened Edges
  import opened Split

  /** `BSPTreeNode`: the leaves "in" and "out", or a node holding its plane. */
  datatype Tree = In | Out | Node(plane: Plane, left: Tree, right: Tree)

  /** Why no tree was built: `planes[0]` read from an empty list (the
      source then fails inside `splitPolygon`), or the model's recursion
      budget ran out. */
  datatype BuildError = MissingPlane | OutOfFuel

  function Depth(t: Tree): nat
  {
    match t
    case In => 0
    case Out => 0
    case Node(_, l, r) => 1 + (if Depth(l) >= Depth(r) then Depth(l) else Depth(r))
  }

  /** The edge has an endpoint off the plane. */
  function NonPlanar(plane: Plane): Edge -> bool
  {
    (e: Edge) => !IsOnPlane(e.tail, plane) || !IsOnPlane(e.head, plane)
  }

  /** `getNonPlanarEdges`: the polygon's edges that have an endpoint off the
      plane, in boundary order. */
  function NonPlanarEdges(p: Polygon, plane: Plane): (r: seq<Plane>)
    ensures forall e :: e in r <==>
      e in GetEdges(p) && (!IsOnPlane(e.tail, plane) || !IsOnPlane(e.head, plane))
    ensures ReadsAt(r, GetEdges(p), Positions(GetEdges(p), NonPlanar(plane)))
  {
    FilterInOrder(GetEdges(p), NonPlanar(plane));
    Filter(GetEdges(p), NonPlanar(plane))
  }

  /** The next splitting plane, `getNonPlanarEdges(p)[0]`, is the first edge
      in boundary order with an endpoint off the plane: every earlier edge
      lies on the plane. */
  lemma NextPlaneIsFirstNonPlanarEdge(p: Polygon, plane: Plane)
    requires |NonPlanarEdges(p, plane)| > 0
    ensures var i := Positions(GetEdges(p), NonPlanar(plane))[0];
      && i < |GetEdges(p)|
      && NonPlanarEdges(p, plane)[0] == GetEdges(p)[i]
      && (!IsOnPlane(GetEdges(p)[i].tail, plane) || !IsOnPlane(GetEdges(p)[i].head, plane))
      && forall j :: 0 <= j < i ==> IsOnPlane(GetEdges(p)[j].tail, plane) && IsOnPlane(GetEdges(p)[j].head, plane)
  {
    var edges := GetEdges(p);
    var idx := Positions(edges, NonPlanar(plane));
    assert ReadsAt(NonPlanarEdges(p, plane), edges, idx);
    PositionsFirst(edges, NonPlanar(plane));
    var i := idx[0];
    assert NonPlanarEdges(p, plane)[0] == edges[i] && NonPlanar(plane)(edges[i]);
    forall j | 0 <= j < i
      ensures IsOnPlane(edges[j].tail, plane) && IsOnPlane(edges[j].head, plane)
    {
      assert !NonPlanar(plane)(edges[j]);
    }
  }

  /** `buildBSPT(p, planes)`, with a recursion budget `fuel`. A built tree
      is a node on `planes[0]` at most `fuel` levels deep; an empty plane
      list is an error. */
  function BuildBSPT(p: Polygon, planes: seq<Plane>, fuel: nat): (r: Result<Tree, BuildError>)
    ensures |planes| == 0 ==> r == Failure(MissingPlane)
    ensures r.Success? ==> r.value.Node? && r.value.plane == planes[0]
    ensures r.Success? ==> Depth(r.value) <= fuel
    decreases fuel, 1, 0
  {
    if |planes| == 0 then Failure(MissingPlane)
    else if fuel == 0 then Failure(OutOfFuel)
    else BuildFromSplit(SplitPolygon(p, planes[0]), planes[0], planes[1..], fuel)
  }

  /** The rest of `buildBSPT` once `p` is split by `plane`: the terminal
      case, the choice of planes for each side (the remaining planes, or
      after a bisection each fragment's own non-planar edges), and the two
      subtrees. */
  function BuildFromSplit(split: SplitResult, plane: Plane, unusedPlanes: seq<Plane>, fuel: nat)
    : (r: Result<Tree, BuildError>)
    requires fuel >= 1
    ensures r.Success? ==> r.value.Node? && r.value.plane == plane
    ensures r.Success? ==> Depth(r.value) <= fuel
    decreases fuel, 0, 1
  {
    if (|split.right| == 0 || |split.left| == 0) && |unusedPlanes| == 0 then
      Success(Node(plane, In, Out))
    else
      BuildChildren(split, plane, unusedPlanes, fuel)
  }

  /** The non-terminal case of `buildBSPT`: a node on `plane` over the two
      sides' subtrees. */
  function BuildChildren(split: SplitResult, plane: Plane, unusedPlanes: seq<Plane>, fuel: nat)
    : (r: Result<Tree, BuildError>)
    requires fuel >= 1
    ensures r.Success? ==> r.value.Node? && r.value.plane == plane
    ensures r.Success? ==> Depth(r.value) <= fuel
    decreases fuel, 0, 0
  {
    var bisected := |split.left| > 0 && |split.right| > 0;
    var leftPlanes := SidePlanes(split.left, bisected, plane, unusedPlanes);
    var rightPlanes := SidePlanes(split.right, bisected, plane, unusedPlanes);
    var l :- BuildSide(split.left, leftPlanes, plane, In, fuel - 1);
    var r :- BuildSide(split.right, rightPlanes, plane, Out, fuel - 1);
    Success(Node(plane, l, r))
  }

  /** `leftPlanes` / `rightPlanes`: after a bisection the first fragment's
      non-planar edges, otherwise the planes not yet used. */
  function SidePlanes(fragments: seq<Polygon>, bisected: bool, plane: Plane, unusedPlanes: seq<Plane>): seq<Plane>
    requires bisected ==> |fragments| > 0
  {
    if bisected then NonPlanarEdges(fragments[0], plane) else unusedPlanes
  }

  /** One side of `buildBSPT`: no fragment gives the side's leaf (`"in"` on
      the left, `"out"` on the right), one fragment a recursive build with
      the side's planes, more than one a merge, which always fails. */
  function BuildSide(polygons: seq<Polygon>, planes: seq<Plane>, plane: Plane, empty: Tree, fuel: nat)
    : (r: Result<Tree, BuildError>)
    requires empty == In || empty == Out
    ensures |polygons| == 0 ==> r == Success(empty)
    ensures |polygons| > 1 ==> r == Failure(MissingPlane)
    ensures r.Success? ==> Depth(r.value) <= fuel
    decreases fuel, 4, 0
  {
    if |polygons| > 1 then MergeSubTrees(polygons, plane, fuel)
    else if |polygons| == 1 then BuildBSPT(polygons[0], planes, fuel)
    else Success(empty)
  }

  /** `polygons.map(polygon => buildBSPT(polygon, planes))`, stopping at the
      first failure as the thrown error would. */
  function BuildEach(polygons: seq<Polygon>, planes: seq<Plane>, fuel: nat)
    : (r: Result<seq<Tree>, BuildError>)
    ensures r.Success? ==> |r.value| == |polygons|
    ensures |polygons| > 0 && |planes| == 0 ==> r == Failure(MissingPlane)
    decreases fuel, 2, |polygons|
  {
    if |polygons| == 0 then Success([])
    else
      var t :- BuildBSPT(polygons[0], planes, fuel);
      var rest :- BuildEach(polygons[1..], planes, fuel);
      Success([t] + rest)
  }

  /** `mergeSubTrees(polygons, plane)`. It builds every fragment with an
      EMPTY plane list, which `buildBSPT` cannot accept, so it never
      produces a tree. */
  function MergeSubTrees(polygons: seq<Polygon>, plane: Plane, fuel: nat): (r: Result<Tree, BuildError>)
    requires |polygons| >= 1
    ensures r == Failure(MissingPlane)
    decreases fuel, 3, 0
  {
    match BuildEach(polygons, [], fuel)
    case Failure(e) => Failure(e)
    case Success(trees) =>
      match CombineTrees(trees, plane)
      case Some(t) => Success(t)
      case None => Failure(MissingPlane)
  }

  /** `_.chunk(trees, 2)` mapped to nodes: consecutive pairs become nodes on
      `plane`, and an odd last tree is paired with `"out"`. */
  function PairNodes(trees: seq<Tree>, plane: Plane): (nodes: seq<Tree>)
    ensures |nodes| == (|trees| + 1) / 2
    ensures forall k :: 0 <= k < |nodes| ==> nodes[k].Node? && nodes[k].plane == plane
    decreases |trees|
  {
    if |trees| == 0 then []
    else if |trees| == 1 then [Node(plane, trees[0], Out)]
    else [Node(plane, trees[0], trees[1])] + PairNodes(trees[2..], plane)
  }

  /** Reads the children of the pair nodes back, in order. */
  function Unpair(nodes: seq<Tree>): seq<Tree>
  {
    if |nodes| == 0 then []
    else
      match nodes[0]
      case Node(_, l, r) => [l, r] + Unpair(nodes[1..])
      case _ => [nodes[0]] + Unpair(nodes[1..])
  }

  /** Pairing keeps every tree in order, padding an odd count with one `"out"`. */
  lemma {:induction false} UnpairPairNodes(trees: seq<Tree>, plane: Plane)
    ensures Unpair(PairNodes(trees, plane)) == trees + (if |trees| % 2 == 1 then [Out] else [])
    decreases |trees|
  {
    if |trees| >= 2 {
      var pad: seq<Tree> := if |trees| % 2 == 1 then [Out] else [];
      var rest := PairNodes(trees[2..], plane);
      UnpairPairNodes(trees[2..], plane);
      assert PairNodes(trees, plane) == [Node(plane, trees[0], trees[1])] + rest;
      assert ([Node(plane, trees[0], trees[1])] + rest)[1..] == rest;
      assert Unpair(PairNodes(trees, plane)) == [trees[0], trees[1]] + (trees[2..] + pad);
      assert trees == [trees[0], trees[1]] + trees[2..];
    } else if |trees| == 1 {
      assert Unpair([Node(plane, trees[0], Out)]) == [trees[0], Out] + Unpair([]);
    }
  }

  /** `treeNodes.reduce(...)` from `undefined`: the first node, then each next
      node hung to the right of a new node on `plane` whose left is the
      accumulated tree. */
  function FoldNodes(nodes: seq<Tree>, plane: Plane): (r: Option<Tree>)
    ensures r.None? <==> |nodes| == 0
    decreases |nodes|
  {
    if |nodes| == 0 then None
    else if |nodes| == 1 then Some(nodes[0])
    else Some(Node(plane, FoldNodes(nodes[..|nodes| - 1], plane).value, nodes[|nodes| - 1]))
  }

  /** The left spine of `t`, `n` entries long, read back as the nodes it was
      folded from. */
  function Unfold(t: Tree, n: nat): seq<Tree>
    decreases n
  {
    if n <= 1 then [t]
    else
      match t
      case Node(_, l, r) => Unfold(l, n - 1) + [r]
      case _ => [t]
  }

  /** The first `n - 1` nodes down the left spine all lie on `plane`. */
  predicate SpineOnPlane(t: Tree, n: nat, plane: Plane)
    decreases n
  {
    n <= 1 || (t.Node? && t.plane == plane && SpineOnPlane(t.left, n - 1, plane))
  }

  /** Folding is undone by unfolding, and every joining node is on `plane`. */
  lemma {:induction false} FoldNodesRoundTrip(nodes: seq<Tree>, plane: Plane)
    requires |nodes| > 0
    ensures Unfold(FoldNodes(nodes, plane).value, |nodes|) == nodes
    ensures SpineOnPlane(FoldNodes(nodes, plane).value, |nodes|, plane)
    decreases |nodes|
  {
    if |nodes| > 1 {
      var front := nodes[..|nodes| - 1];
      FoldNodesRoundTrip(front, plane);
      assert front + [nodes[|nodes| - 1]] == nodes;
    }
  }

  /** The combining part of `mergeSubTrees`. */
  function CombineTrees(trees: seq<Tree>, plane: Plane): Option<Tree>
  {
    FoldNodes(PairNodes(trees, plane), plane)
  }

  /** For any non-empty list of subtrees, combining yields a tree whose left
      spine holds `ceil(k / 2)` pair nodes, every internal node of the spine
      and of the pairs is on `plane`, and reading the pairs back gives the
      subtrees in their original order, padded with one `"out"` when `k` is
      odd. */
  lemma CombineTreesShape(trees: seq<Tree>, plane: Plane)
    requires |trees| > 0
    ensures CombineTrees(trees, plane).Some?
    ensures var nodes := Unfold(CombineTrees(trees, plane).value, (|trees| + 1) / 2);
      && |nodes| == (|trees| + 1) / 2
      && (forall k :: 0 <= k < |nodes| ==> nodes[k].Node? && nodes[k].plane == plane)
      && Unpair(nodes) == trees + (if |trees| % 2 == 1 then [Out] else [])
    ensures SpineOnPlane(CombineTrees(trees, plane).value, (|trees| + 1) / 2, plane)
  {
    var nodes := PairNodes(trees, plane);
    FoldNodesRoundTrip(nodes, plane);
    UnpairPairNodes(trees, plane);
  }

  /** A plane that leaves nothing on its left passes the whole polygon on to
      the right subtree with the remaining planes; the left slot is `"in"`. */
  lemma BuildPassesWholePolygonRight(p: Polygon, planes: seq<Plane>, fuel: nat)
    requires |planes| >= 2 && fuel >= 1
    requires forall v :: v in p ==> !IsLeftOfPlane(v, planes[0])
    ensures BuildBSPT(p, planes, fuel) ==
      match BuildBSPT(p, planes[1..], fuel - 1)
      case Success(t) => Success(Node(planes[0], In, t))
      case Failure(e) => Failure(e)
  {
    SplitTrivialCases(p, planes[0]);
    assert BuildBSPT(p, planes, fuel) == BuildFromSplit(SplitResult([], [p]), planes[0], planes[1..], fuel);
    BuildFromOneSided(p, planes[0], planes[1..], fuel, false);
  }

  /** A plane that leaves nothing on its right passes the whole polygon on to
      the left subtree with the remaining planes; the right slot is `"out"`. */
  lemma BuildPassesWholePolygonLeft(p: Polygon, planes: seq<Plane>, fuel: nat)
    requires |planes| >= 2 && fuel >= 1
    requires exists v :: v in p && IsLeftOfPlane(v, planes[0])
    requires forall v :: v in p ==> !IsRightOfPlane(v, planes[0])
    ensures BuildBSPT(p, planes, fuel) ==
      match BuildBSPT(p, planes[1..], fuel - 1)
      case Success(t) => Success(Node(planes[0], t, Out))
      case Failure(e) => Failure(e)
  {
    SplitTrivialCases(p, planes[0]);
    assert BuildBSPT(p, planes, fuel) == BuildFromSplit(SplitResult([p], []), planes[0], planes[1..], fuel);
    BuildFromOneSided(p, planes[0], planes[1..], fuel, true);
  }

  /** With planes left over, a one-sided split builds the whole polygon on
      its side with those planes, and the other side's leaf. */
  lemma BuildFromOneSided(p: Polygon, plane: Plane, unusedPlanes: seq<Plane>, fuel: nat, onLeft: bool)
    requires |unusedPlanes| >= 1 && fuel >= 1
    ensures var split := if onLeft then SplitResult([p], []) else SplitResult([], [p]);
      BuildFromSplit(split, plane, unusedPlanes, fuel) ==
        match BuildBSPT(p, unusedPlanes, fuel - 1)
        case Success(t) => Success(if onLeft then Node(plane, t, Out) else Node(plane, In, t))
        case Failure(e) => Failure(e)
  {
    var split := if onLeft then SplitResult([p], []) else SplitResult([], [p]);
    assert BuildFromSplit(split, plane, unusedPlanes, fuel) == BuildChildren(split, plane, unusedPlanes, fuel);
    if onLeft {
      assert BuildSide(split.left, unusedPlanes, plane, In, fuel - 1) == BuildBSPT(p, unusedPlanes, fuel - 1);
      assert BuildSide(split.right, unusedPlanes, plane, Out, fuel - 1) == Success(Out);
    } else {
      assert BuildSide(split.left, unusedPlanes, plane, In, fuel - 1) == Success(In);
      assert BuildSide(split.right, unusedPlanes, plane, Out, fuel - 1) == BuildBSPT(p, unusedPlanes, fuel - 1);
    }
  }

  /** With the last plane, a polygon on one side only ends the recursion
      with the leaves `"in"` and `"out"`. */
  lemma BuildLastPlaneOneSided(p: Polygon, plane: Plane, fuel: nat)
    requires fuel >= 1
    requires (forall v :: v in p ==> !IsLeftOfPlane(v, plane))
          || (forall v :: v in p ==> !IsRightOfPlane(v, plane))
    ensures BuildBSPT(p, [plane], fuel) == Success(Node(plane, In, Out))
  {
    var split := SplitPolygon(p, plane);
    assert |split.left| == 0 || |split.right| == 0;
    assert BuildBSPT(p, [plane], fuel) == BuildFromSplit(split, plane, [plane][1..], fuel);
  }

  /** A split that leaves two or more fragments on the left makes the whole
      build fail: those fragments reach `mergeSubTrees`. */
  lemma BuildFailsOnLeftFragments(p: Polygon, planes: seq<Plane>, fuel: nat)
    requires |planes| >= 1 && fuel >= 1
    requires |SplitPolygon(p, planes[0]).left| >= 2
    ensures BuildBSPT(p, planes, fuel) == Failure(MissingPlane)
  {
    SplitTrivialCases(p, planes[0]);
    var split := SplitPolygon(p, planes[0]);
    assert |split.right| > 0;
    assert BuildBSPT(p, planes, fuel) == BuildFromSplit(split, planes[0], planes[1..], fuel);
    assert BuildFromSplit(split, planes[0], planes[1..], fuel) == BuildChildren(split, planes[0], planes[1..], fuel);
    assert BuildSide(split.left, SidePlanes(split.left, true, planes[0], planes[1..]), planes[0], In, fuel - 1)
      == Failure(MissingPlane);
  }

  /** A split that leaves two or more fragments on the right also makes the
      build fail, whichever side fails first. */
  lemma BuildFailsOnRightFragments(p: Polygon, planes: seq<Plane>, fuel: nat)
    requires |planes| >= 1 && fuel >= 1
    requires |SplitPolygon(p, planes[0]).right| >= 2
    ensures BuildBSPT(p, planes, fuel).Failure?
  {
    SplitTrivialCases(p, planes[0]);
    var split := SplitPolygon(p, planes[0]);
    assert |split.left| > 0;
    assert BuildBSPT(p, planes, fuel) == BuildFromSplit(split, planes[0], planes[1..], fuel);
    assert BuildFromSplit(split, planes[0], planes[1..], fuel) == BuildChildren(split, planes[0], planes[1..], fuel);
    ChildrenFailOnRightFragments(split, planes[0], planes[1..], fuel);
  }

  lemma ChildrenFailOnRightFragments(split: SplitResult, plane: Plane, unusedPlanes: seq<Plane>, fuel: nat)
    requires fuel >= 1 && |split.left| > 0 && |split.right| >= 2
    ensures BuildChildren(split, plane, unusedPlanes, fuel).Failure?
  {
    assert BuildSide(split.right, SidePlanes(split.right, true, plane, unusedPlanes), plane, Out, fuel - 1)
      == Failure(MissingPlane);
  }

  lemma BuildFromSplitBisected(split: SplitResult, plane: Plane, unusedPlanes: seq<Plane>, fuel: nat)
    requires fuel >= 1 && |split.left| == 1 && |split.right| == 1
    ensures var l := BuildBSPT(split.left[0], NonPlanarEdges(split.left[0], plane), fuel - 1);
      var r := BuildBSPT(split.right[0], NonPlanarEdges(split.right[0], plane), fuel - 1);
      BuildFromSplit(split, plane, unusedPlanes, fuel) ==
        if l.Failure? then Failure(l.error)
        else if r.Failure? then Failure(r.error)
        else Success(Node(plane, l.value, r.value))
  {
    assert |split.left| > 0 && |split.right| > 0;
    assert BuildFromSplit(split, plane, unusedPlanes, fuel) == BuildChildren(split, plane, unusedPlanes, fuel);
    var leftPlanes := NonPlanarEdges(split.left[0], plane);
    var rightPlanes := NonPlanarEdges(split.right[0], plane);
    assert BuildSide(split.left, leftPlanes, plane, In, fuel - 1) == BuildBSPT(split.left[0], leftPlanes, fuel - 1);
    assert BuildSide(split.right, rightPlanes, plane, Out, fuel - 1) == BuildBSPT(split.right[0], rightPlanes, fuel - 1);
  }

  /** When the plane bisects the polygon into one fragment per side, each
      fragment is built with its own non-planar edges as planes, not with
      the remaining list, and the two results become the node's children. */
  lemma BuildBisected(p: Polygon, planes: seq<Plane>, fuel: nat)
    requires |planes| >= 1 && fuel >= 1
    requires |SplitPolygon(p, planes[0]).left| == 1 && |SplitPolygon(p, planes[0]).right| == 1
    ensures var split := SplitPolygon(p, planes[0]);
      var l := BuildBSPT(split.left[0], NonPlanarEdges(split.left[0], planes[0]), fuel - 1);
      var r := BuildBSPT(split.right[0], NonPlanarEdges(split.right[0], planes[0]), fuel - 1);
      BuildBSPT(p, planes, fuel) ==
        if l.Failure? then Failure(l.error)
        else if r.Failure? then Failure(r.error)
        else Success(Node(planes[0], l.value, r.value))
  {
    var split := SplitPolygon(p, planes[0]);
    assert BuildBSPT(p, planes, fuel) == BuildFromSplit(split, planes[0], planes[1..], fuel);
    BuildFromSplitBisected(split, planes[0], planes[1..], fuel);
  }
}

=== FILE: edges.dfy ===
/** The boundary edges of a polygon, closing edge included. */
module Edges {
  import opened Geometry

  /** The index after `i` around a loop of `n` vertices. */
  function Next(i: nat, n: nat): nat
  {
    if i + 1 < n then i + 1 else 0
  }

  /** Edge `i` runs from vertex `i` to vertex `i + 1`, and the last edge
      closes the loop back to vertex 0. The source's trailing
      `.filter(x => x)` keeps every edge, since a pair is always truthy. */
  function GetEdges(p: Polygon): (edges: seq<Edge>)
    ensures |edges| == |p|
    ensures forall i :: 0 <= i < |p| ==> edges[i].tail == p[i]
    ensures forall i :: 0 <= i < |p| ==> edges[i].head == p[Next(i, |p|)]
  {
    seq(|p|, i requires 0 <= i < |p| =>
      if i != |p| - 1 then Edge(p[i], p[i + 1]) else Edge(p[i], p[0]))
  }

  /** Consecutive edges share a vertex, and the last edge leads back to the
      first: the edges form one cycle. */
  lemma EdgesFormCycle(p: Polygon)
    requires |p| > 0
    ensures var e := GetEdges(p);
      forall i :: 0 <= i < |p| ==> e[i].head == e[Next(i, |p|)].tail
    ensures GetEdges(p)[|p| - 1] == Edge(p[|p| - 1], p[0])
  {
  }

  /** Reading off the tails gives the polygon back, and the heads give the
      polygon rotated by one vertex. */
  lemma EdgesRoundTrip(p: Polygon)
    ensures seq(|p|, i requires 0 <= i < |p| => GetEdges(p)[i].tail) == p
    ensures |p| > 0 ==>
      seq(|p|, i requires 0 <= i < |p| => GetEdges(p)[i].head) == p[1..] + p[..1]
  {
    var e := GetEdges(p);
    if |p| > 0 {
      var heads := seq(|p|, i requires 0 <= i < |p| => e[i].head);
      forall i | 0 <= i < |p|
        ensures heads[i] == (p[1..] + p[..1])[i]
      {
        if i < |p| - 1 {
          assert heads[i] == p[i + 1];
        } else {
          assert heads[i] == p[0];
        }
      }
    }
  }

  /** Both endpoints of every edge are vertices of the polygon. */
  lemma EdgeEndpointsInPolygon(p: Polygon, e: Edge)
    requires e in GetEdges(p)
    ensures e.tail in p && e.head in p
  {
    var i :| 0 <= i < |p| && GetEdges(p)[i] == e;
    assert p[Next(i, |p|)] == e.head;
  }
}

=== FILE: geometry.dfy ===
/** The geometry kernel: vertices, edges and partition lines, the half-plane
    test by the sign of a 2x2 determinant, and the slope-intercept line
    intersection. Coordinates are exact reals. */
module Geometry {
  import opened Wrappers

  /** A point of the plane. */
  datatype Vertex = Vertex(x: real, y: real)

  /** An ordered pair of vertices: a boundary segment, or an oriented line. */
  datatype Edge = Edge(tail: Vertex, head: Vertex)

  /** A partition line ("plane") is the same pair of vertices as an edge. */
  type Plane = Edge

  /** A closed loop of vertices; the closing edge is implicit. */
  type Polygon = seq<Vertex>

  /** The determinant of the 2x2 matrix whose columns are the plane's
      direction and the point's offset from the plane's first vertex. It
      vanishes at both vertices that define the plane, and everywhere when
      those vertices coincide. */
  function Determinant(point: Vertex, plane: Plane): (d: real)
    ensures point == plane.tail || point == plane.head ==> d == 0.0
    ensures plane.tail == plane.head ==> d == 0.0
  {
    var a0 := plane.head.x - plane.tail.x;
    var a1 := plane.head.y - plane.tail.y;
    var a2 := point.x - plane.tail.x;
    var a3 := point.y - plane.tail.y;
    a0 * a3 - a2 * a1
  }

  predicate IsLeftOfPlane(point: Vertex, plane: Plane)
  {
    Determinant(point, plane) < 0.0
  }

  predicate IsRightOfPlane(point: Vertex, plane: Plane)
  {
    Determinant(point, plane) > 0.0
  }

  predicate IsOnPlane(point: Vertex, plane: Plane)
  {
    Determinant(point, plane) == 0.0
  }

  datatype Side = Left | Right | On

  /** Reversing a plane's direction negates the determinant, so it swaps
      its left and right sides and keeps the points on it. */
  lemma DeterminantReversed(point: Vertex, plane: Plane)
    ensures Determinant(point, Edge(plane.head, plane.tail)) == -Determinant(point, plane)
    ensures IsLeftOfPlane(point, Edge(plane.head, plane.tail)) <==> IsRightOfPlane(point, plane)
    ensures IsOnPlane(point, Edge(plane.head, plane.tail)) <==> IsOnPlane(point, plane)
  {
  }

  /** The side a point lies on; each point has exactly one. */
  function Classify(point: Vertex, plane: Plane): (s: Side)
    ensures s == Left <==> IsLeftOfPlane(point, plane)
    ensures s == Right <==> IsRightOfPlane(point, plane)
    ensures s == On <==> IsOnPlane(point, plane)
  {
    if IsLeftOfPlane(point, plane) then Left
    else if IsRightOfPlane(point, plane) then Right
    else On
  }

  /** Both vertices that define a plane lie on it. */
  lemma PlaneEndpointsOnPlane(plane: Plane)
    ensures IsOnPlane(plane.tail, plane)
    ensures IsOnPlane(plane.head, plane)
  {
  }

  /** The determinant is affine in the point: at a weighted average of three
      points it is the same weighted average of their determinants. */
  lemma DeterminantOfAverage(a: Vertex, b: Vertex, c: Vertex, plane: Plane)
    ensures Determinant(Vertex((a.x + b.x + c.x) / 3.0, (a.y + b.y + c.y) / 3.0), plane)
         == (Determinant(a, plane) + Determinant(b, plane) + Determinant(c, plane)) / 3.0
  {
    var a0 := plane.head.x - plane.tail.x;
    var a1 := plane.head.y - plane.tail.y;
    var g := Vertex((a.x + b.x + c.x) / 3.0, (a.y + b.y + c.y) / 3.0);
    var xa, xb, xc := a.x - plane.tail.x, b.x - plane.tail.x, c.x - plane.tail.x;
    var ya, yb, yc := a.y - plane.tail.y, b.y - plane.tail.y, c.y - plane.tail.y;
    assert g.x - plane.tail.x == (xa + xb + xc) / 3.0;
    assert g.y - plane.tail.y == (ya + yb + yc) / 3.0;
    SumOfDeterminants(a0, a1, xa, xb, xc, ya, yb, yc);
  }

  lemma SumOfDeterminants(a0: real, a1: real, xa: real, xb: real, xc: real, ya: real, yb: real, yc: real)
    ensures a0 * ((ya + yb + yc) / 3.0) - ((xa + xb + xc) / 3.0) * a1
         == ((a0 * ya - xa * a1) + (a0 * yb - xb * a1) + (a0 * yc - xc * a1)) / 3.0
  {
    assert a0 * (ya + yb + yc) == a0 * ya + a0 * yb + a0 * yc;
    assert (xa + xb + xc) * a1 == xa * a1 + xb * a1 + xc * a1;
  }

  /** A line in slope-intercept form `y = m * x + b`, or a vertical line,
      whose JavaScript slope is infinite. */
  datatype SlopeIntercept = Sloped(m: real, b: real) | Vertical

  /** The slope-intercept form of the line through an edge. A zero run
      (including a zero-length edge) gives a vertical line. */
  function SlopeInterceptForm(l: Edge): (f: SlopeIntercept)
    ensures f.Vertical? <==> l.head.x == l.tail.x
    ensures f.Sloped? ==> f.m * (l.head.x - l.tail.x) == l.head.y - l.tail.y
    ensures f.Sloped? ==> l.tail.y == f.m * l.tail.x + f.b
  {
    var dy := l.head.y - l.tail.y;
    var dx := l.head.x - l.tail.x;
    if dx == 0.0 then Vertical
    else
      var m := dy / dx;
      Sloped(m, l.tail.y - m * l.tail.x)
  }

  /** The intersection of the two infinite lines through `l1` and `l2`, or
      None when their slopes are equal (two vertical lines count as
      parallel). A vertical line contributes its x coordinate. */
  function Intersection(l1: Edge, l2: Edge): (r: Option<Vertex>)
    ensures r.Some? && l1.head.x == l1.tail.x ==> r.value.x == l1.tail.x
    ensures r.Some? && l2.head.x == l2.tail.x ==> r.value.x == l2.tail.x
    ensures r.None? <==>
      || (SlopeInterceptForm(l1).Vertical? && SlopeInterceptForm(l2).Vertical?)
      || (SlopeInterceptForm(l1).Sloped? && SlopeInterceptForm(l2).Sloped?
          && SlopeInterceptForm(l1).m == SlopeInterceptForm(l2).m)
  {
    var f1 := SlopeInterceptForm(l1);
    var f2 := SlopeInterceptForm(l2);
    if f1 == f2 then None
    else if f1.Vertical? then
      var x := l1.tail.x;
      Some(Vertex(x, f2.m * x + f2.b))
    else if f2.Vertical? then
      var x := l2.tail.x;
      Some(Vertex(x, f1.m * x + f1.b))
    else if f1.m == f2.m then None
    else Some(SlopedMeet(f1.m, f1.b, f2.m, f2.b))
  }

  /** The point where `y = m1 x + b1` meets `y = m2 x + b2`, computed from
      the first line: it lies on both. */
  function SlopedMeet(m1: real, b1: real, m2: real, b2: real): (v: Vertex)
    requires m1 != m2
    ensures v.y == m1 * v.x + b1
    ensures v.y == m2 * v.x + b2
  {
    var x := (b2 - b1) / (m1 - m2);
    SlopedLinesMeet(m1, b1, m2, b2);
    Vertex(x, m1 * x + b1)
  }

  /** A point on the non-vertical line through `l` lies on `l` as a plane. */
  lemma SlopedPointOnLine(l: Edge, x: real)
    requires SlopeInterceptForm(l).Sloped?
    ensures IsOnPlane(Vertex(x, SlopeInterceptForm(l).m * x + SlopeInterceptForm(l).b), l)
  {
    var f := SlopeInterceptForm(l);
    var dx := l.head.x - l.tail.x;
    var dy := l.head.y - l.tail.y;
    var p := Vertex(x, f.m * x + f.b);
    assert p.y - l.tail.y == f.m * (x - l.tail.x);
    calc {
      Determinant(p, l);
      dx * (p.y - l.tail.y) - (x - l.tail.x) * dy;
      dx * (f.m * (x - l.tail.x)) - (x - l.tail.x) * dy;
      (f.m * dx) * (x - l.tail.x) - (x - l.tail.x) * dy;
      dy * (x - l.tail.x) - (x - l.tail.x) * dy;
      0.0;
    }
  }

  /** A point with the x coordinate of the vertical line through `l` lies on it. */
  lemma VerticalPointOnLine(l: Edge, y: real)
    requires SlopeInterceptForm(l).Vertical?
    ensures IsOnPlane(Vertex(l.tail.x, y), l)
  {
  }

  /** Two non-parallel lines `y = m1 x + b1` and `y = m2 x + b2` meet at
      `x = (b2 - b1) / (m1 - m2)`. */
  lemma SlopedLinesMeet(m1: real, b1: real, m2: real, b2: real)
    requires m1 != m2
    ensures var x := (b2 - b1) / (m1 - m2);
      m1 * x + b1 == m2 * x + b2
  {
    var x := (b2 - b1) / (m1 - m2);
    assert (m1 - m2) * x == b2 - b1;
  }

  lemma SlopedIntersectionOnBothLines(l1: Edge, l2: Edge)
    requires SlopeInterceptForm(l1).Sloped? && SlopeInterceptForm(l2).Sloped?
    requires SlopeInterceptForm(l1).m != SlopeInterceptForm(l2).m
    ensures Intersection(l1, l2).Some?
    ensures IsOnPlane(Intersection(l1, l2).value, l1) && IsOnPlane(Intersection(l1, l2).value, l2)
  {
    var f1 := SlopeInterceptForm(l1);
    var f2 := SlopeInterceptForm(l2);
    var v := SlopedMeet(f1.m, f1.b, f2.m, f2.b);
    assert Intersection(l1, l2) == Some(v);
    SlopedPointOnLine(l1, v.x);
    assert v == Vertex(v.x, f1.m * v.x + f1.b);
    assert v == Vertex(v.x, f2.m * v.x + f2.b);
    SlopedPointOnLine(l2, v.x);
  }

  /** The point `Intersection` returns lies on both lines. */
  lemma IntersectionOnBothLines(l1: Edge, l2: Edge)
    requires Intersection(l1, l2).Some?
    ensures IsOnPlane(Intersection(l1, l2).value, l1)
    ensures IsOnPlane(Intersection(l1, l2).value, l2)
  {
    var f1 := SlopeInterceptForm(l1);
    var f2 := SlopeInterceptForm(l2);
    var v := Intersection(l1, l2).value;
    if f1.Vertical? {
      assert f2.Sloped? && v == Vertex(l1.tail.x, f2.m * l1.tail.x + f2.b);
      VerticalPointOnLine(l1, v.y);
      SlopedPointOnLine(l2, v.x);
    } else if f2.Vertical? {
      assert v == Vertex(l2.tail.x, f1.m * l2.tail.x + f1.b);
      SlopedPointOnLine(l1, v.x);
      VerticalPointOnLine(l2, v.y);
    } else {
      SlopedIntersectionOnBothLines(l1, l2);
    }
  }

  /** The cross product of the two directions; zero exactly for parallel lines. */
  function Cross(l1: Edge, l2: Edge): real
  {
    (l1.head.x - l1.tail.x) * (l2.head.y - l2.tail.y)
      - (l1.head.y - l1.tail.y) * (l2.head.x - l2.tail.x)
  }

  /** The cross product of two sloped directions, written with their slopes. */
  lemma CrossOfSlopes(dx1: real, dy1: real, dx2: real, dy2: real, m1: real, m2: real)
    requires dx1 != 0.0 && dx2 != 0.0
    requires m1 * dx1 == dy1 && m2 * dx2 == dy2
    ensures dx1 * dy2 - dy1 * dx2 == (m2 - m1) * (dx1 * dx2)
    ensures dx1 * dx2 != 0.0
  {
    calc {
      dx1 * dy2 - dy1 * dx2;
      dx1 * (m2 * dx2) - (m1 * dx1) * dx2;
      (m2 - m1) * (dx1 * dx2);
    }
  }

  /** A product of reals is zero only when a factor is. */
  lemma ProductZero(a: real, b: real)
    requires b != 0.0
    ensures a * b == 0.0 <==> a == 0.0
  {
    assert a == (a * b) / b;
  }

  /** For two proper segments, `Intersection` finds no point exactly when
      the lines are parallel. */
  lemma IntersectionNoneIffParallel(l1: Edge, l2: Edge)
    requires l1.tail != l1.head && l2.tail != l2.head
    ensures Intersection(l1, l2).None? <==> Cross(l1, l2) == 0.0
  {
    var f1 := SlopeInterceptForm(l1);
    var f2 := SlopeInterceptForm(l2);
    if f1.Sloped? && f2.Sloped? {
      SlopedNoneIffParallel(l1, l2);
    } else if f1.Vertical? && f2.Sloped? {
      assert Intersection(l1, l2).Some?;
      VerticalCrossesSloped(l1, l2);
    } else if f1.Sloped? && f2.Vertical? {
      assert Intersection(l1, l2).Some?;
      VerticalCrossesSloped(l2, l1);
    } else {
      assert Intersection(l1, l2).None?;
    }
  }

  /** Two sloped lines: no intersection exactly when the slopes, and so the
      directions, agree. */
  lemma SlopedNoneIffParallel(l1: Edge, l2: Edge)
    requires SlopeInterceptForm(l1).Sloped? && SlopeInterceptForm(l2).Sloped?
    ensures Intersection(l1, l2).None? <==> Cross(l1, l2) == 0.0
  {
    var f1 := SlopeInterceptForm(l1);
    var f2 := SlopeInterceptForm(l2);
    var dx1, dy1 := l1.head.x - l1.tail.x, l1.head.y - l1.tail.y;
    var dx2, dy2 := l2.head.x - l2.tail.x, l2.head.y - l2.tail.y;
    assert Cross(l1, l2) == dx1 * dy2 - dy1 * dx2;
    CrossOfSlopes(dx1, dy1, dx2, dy2, f1.m, f2.m);
    ProductZero(f2.m - f1.m, dx1 * dx2);
    assert Intersection(l1, l2).None? <==> f1.m == f2.m;
  }

  /** A vertical segment of positive length is never parallel to a sloped one. */
  lemma VerticalCrossesSloped(l1: Edge, l2: Edge)
    requires l1.tail != l1.head
    requires SlopeInterceptForm(l1).Vertical? && SlopeInterceptForm(l2).Sloped?
    ensures Cross(l1, l2) != 0.0 && Cross(l2, l1) != 0.0
  {
    var dy1 := l1.head.y - l1.tail.y;
    var dx2 := l2.head.x - l2.tail.x;
    assert l1.head.x - l1.tail.x == 0.0 && dy1 != 0.0 && dx2 != 0.0;
    ProductZero(dy1, dx2);
    assert Cross(l1, l2) == 0.0 - dy1 * dx2;
    assert Cross(l2, l1) == dx2 * dy1 - 0.0;
  }
}

=== FILE: proto_csg.dfy ===
/** The earlier, root-level `buildBSPT`: it classifies the whole polygon by
    the side of its centroid and never splits it. */
module ProtoCsg {
  import opened Geometry
  import opened Csg

  /** `triangleCentroid(a, b, c)`. */
  function TriangleCentroid(a: Vertex, b: Vertex, c: Vertex): Vertex
  {
    Vertex((a.x + b.x + c.x) / 3.0, (a.y + b.y + c.y) / 3.0)
  }

  /** Against any plane, the centroid's determinant is the mean of the
      corners' determinants, so a triangle strictly on one side has its
      centroid on that side. */
  lemma CentroidDeterminant(a: Vertex, b: Vertex, c: Vertex, plane: Plane)
    ensures Determinant(TriangleCentroid(a, b, c), plane) ==
      (Determinant(a, plane) + Determinant(b, plane) + Determinant(c, plane)) / 3.0
  {
    DeterminantOfAverage(a, b, c, plane);
  }

  /** The determinant `partition` tests: the centroid of the first three
      vertices against `plane`. This version calls a positive value left. */
  function FaceDeterminant(p: Polygon, plane: Plane): real
    requires |p| >= 3
  {
    Determinant(TriangleCentroid(p[0], p[1], p[2]), plane)
  }

  /** The root-level `buildBSPT(p, planes)`. A polygon whose centroid is on
      the plane, or the last plane, gives the leaves `"in"` and `"out"`;
      otherwise the polygon goes whole to the side of its centroid with the
      remaining planes. The result is a node on `planes[0]` with one level
      per plane at most. */
  function ProtoBuild(p: Polygon, planes: seq<Plane>): (t: Tree)
    requires |p| >= 3 && |planes| >= 1
    ensures t.Node? && t.plane == planes[0]
    ensures Depth(t) <= |planes|
    ensures |planes| == 1 ==> t == Node(planes[0], In, Out)
    decreases |planes|
  {
    var plane := planes[0];
    var unusedPlanes := planes[1..];
    var d := FaceDeterminant(p, plane);
    var left := d > 0.0;
    var right := d < 0.0;
    if (!left && !right) || |unusedPlanes| == 0 then Node(plane, In, Out)
    else if !left && right then Node(plane, In, ProtoBuild(p, unusedPlanes))
    else if left && !right then Node(plane, ProtoBuild(p, unusedPlanes), Out)
    else
      // `left` and `right` test opposite signs of one number, so the
      // bisection branch of the source is dead code
      assert false;
      Node(plane, In, Out)
  }

  /** The path the polygon takes through a tree: at each node, the side its
      centroid falls on, whose slot holds either the next node or that
      side's own leaf (`"in"` on the left, `"out"` on the right); a plane
      through the centroid gives both leaves. */
  predicate FollowsCentroid(p: Polygon, t: Tree)
    requires |p| >= 3
  {
    match t
    case In => true
    case Out => true
    case Node(plane, l, r) =>
      var d := FaceDeterminant(p, plane);
      if d > 0.0 then r == Out && (l.Node? || l == In) && FollowsCentroid(p, l)
      else if d < 0.0 then l == In && (r.Node? || r == Out) && FollowsCentroid(p, r)
      else l == In && r == Out
  }

  /** The spine of planes a tree follows from the root, one per level. */
  function SpinePlanes(t: Tree): seq<Plane>
  {
    match t
    case In => []
    case Out => []
    case Node(plane, l, r) => [plane] + (if l.Node? then SpinePlanes(l) else if r.Node? then SpinePlanes(r) else [])
  }

  /** The tree is a single path that keeps the polygon on its centroid's
      side at every level and uses the planes in order, stopping early only
      at a plane through the centroid. */
  lemma {:induction false} ProtoBuildIsCentroidPath(p: Polygon, planes: seq<Plane>)
    requires |p| >= 3 && |planes| >= 1
    ensures FollowsCentroid(p, ProtoBuild(p, planes))
    ensures var s := SpinePlanes(ProtoBuild(p, planes));
      1 <= |s| <= |planes| && s == planes[..|s|]
    ensures |SpinePlanes(ProtoBuild(p, planes))| < |planes| ==>
      FaceDeterminant(p, planes[|SpinePlanes(ProtoBuild(p, planes))| - 1]) == 0.0
    decreases |planes|
  {
    var d := FaceDeterminant(p, planes[0]);
    if |planes| > 1 && d != 0.0 {
      var sub := ProtoBuild(p, planes[1..]);
      ProtoBuildIsCentroidPath(p, planes[1..]);
      if d > 0.0 {
        assert ProtoBuild(p, planes) == Node(planes[0], sub, Out);
      } else {
        assert ProtoBuild(p, planes) == Node(planes[0], In, sub);
      }
      var s := SpinePlanes(sub);
      assert SpinePlanes(ProtoBuild(p, planes)) == [planes[0]] + s;
      assert [planes[0]] + planes[1..][..|s|] == planes[..|s| + 1];
    } else {
      assert ProtoBuild(p, planes) == Node(planes[0], In, Out);
    }
  }

  /** A triangle lying strictly on one side of a plane has its centroid on
      that side too, so it is never put on the other side. */
  lemma TriangleStaysOnItsSide(p: Polygon, plane: Plane)
    requires |p| >= 3
    requires IsRightOfPlane(p[0], plane) && IsRightOfPlane(p[1], plane) && IsRightOfPlane(p[2], plane)
    ensures FaceDeterminant(p, plane) > 0.0
    ensures ProtoBuild(p, [plane, plane]) == Node(plane, Node(plane, In, Out), Out)
  {
    CentroidDeterminant(p[0], p[1], p[2], plane);
  }

  lemma DriverCentroidIsLeft()
    ensures var a, b, c := Vertex(0.0, 0.0), Vertex(1.0, 0.0), Vertex(1.0, 1.0);
      FaceDeterminant([a, b, c], Edge(a, b)) > 0.0 && FaceDeterminant([a, b, c], Edge(b, c)) > 0.0
  {
    var a, b, c := Vertex(0.0, 0.0), Vertex(1.0, 0.0), Vertex(1.0, 1.0);
    var g := TriangleCentroid(a, b, c);
    assert g == Vertex(2.0 / 3.0, 1.0 / 3.0);
    assert [a, b, c][0] == a && [a, b, c][1] == b && [a, b, c][2] == c;
    assert FaceDeterminant([a, b, c], Edge(a, b)) == Determinant(g, Edge(a, b)) == 1.0 / 3.0;
    assert FaceDeterminant([a, b, c], Edge(b, c)) == Determinant(g, Edge(b, c)) == 1.0 / 3.0;
  }

  /** The module's own driver: the triangle (0,0), (1,0), (1,1) with its
      three edges as planes. The centroid (2/3, 1/3) has a positive
      determinant against the first two edges, and the last plane ends the
      path. */
  lemma DriverTriangleTree()
    ensures var a, b, c := Vertex(0.0, 0.0), Vertex(1.0, 0.0), Vertex(1.0, 1.0);
      ProtoBuild([a, b, c], [Edge(a, b), Edge(b, c), Edge(a, c)])
        == Node(Edge(a, b), Node(Edge(b, c), Node(Edge(a, c), In, Out), Out), Out)
  {
    var a, b, c := Vertex(0.0, 0.0), Vertex(1.0, 0.0), Vertex(1.0, 1.0);
    var p := [a, b, c];
    var planes := [Edge(a, b), Edge(b, c), Edge(a, c)];
    DriverCentroidIsLeft();
    assert planes[1..] == [Edge(b, c), Edge(a, c)];
    assert planes[1..][1..] == [Edge(a, c)];
    var last := ProtoBuild(p, [Edge(a, c)]);
    assert last == Node(Edge(a, c), In, Out);
    var middle := ProtoBuild(p, [Edge(b, c), Edge(a, c)]);
    assert middle == Node(Edge(b, c), last, Out);
  }
}

=== FILE: proto_split.dfy ===
/** The earlier, root-level `splitPolygon`: it returns at most one polygon
    per side, built by concatenating vertex groups rather than by walking
    the boundary. */
module ProtoSplit {
  import opened Wrappers
  import opened Geometry
  import opened Seqs
  import opened Edges
  import opened Refine
  import opened Sides

  /** `{ left?: Polygon; right?: Polygon }`. */
  datatype ProtoSplitResult = ProtoSplitResult(left: Option<Polygon>, right: Option<Polygon>)

  /** The first vertex at index distance exactly one from `point`. */
  function FindNeighbour(vertices: seq<Tagged>, point: Tagged): (r: Option<Tagged>)
    ensures r.Some? ==> r.value in vertices && Abs(r.value.i - point.i) == 1
    ensures r.None? ==> forall v :: v in vertices ==> Abs(v.i - point.i) != 1
  {
    if |vertices| == 0 then None
    else if Abs(vertices[0].i - point.i) == 1 then Some(vertices[0])
    else FindNeighbour(vertices[1..], point)
  }

  /** This version's `hasAdjacentPoint`: plain index distance one, so the
      first and last vertices of the polygon are never neighbours. */
  function HasNeighbour(vertices: seq<Tagged>, point: Tagged): (b: bool)
    ensures b <==> exists v :: v in vertices && Abs(v.i - point.i) == 1
  {
    FindNeighbour(vertices, point).Some?
  }

  /** The on-plane vertices with a neighbour on `side`, kept in the order
      of `t`. */
  function AssignedTo(t: seq<Tagged>, plane: Plane, side: Side): (r: seq<Tagged>)
    ensures forall x: Tagged :: x in r <==>
      x in t && IsOnPlane(x.point, plane) && HasNeighbour(SideVertices(t, plane, side), x)
    ensures StrictlyIncreasing(t) ==> StrictlyIncreasing(r)
  {
    var neighbours := SideVertices(t, plane, side);
    var test := (x: Tagged) => HasNeighbour(neighbours, x);
    FilterKeepsOrder(SideVertices(t, plane, On), test);
    Filter(SideVertices(t, plane, On), test)
  }

  /** Neither endpoint of the edge lies on the plane. */
  function OffPlane(plane: Plane): Edge -> bool
  {
    (e: Edge) => !IsOnPlane(e.tail, plane) && !IsOnPlane(e.head, plane)
  }

  /** The source's candidate test: neither endpoint is one of the on-plane
      vertices. */
  function Untouched(onPlane: seq<Vertex>): Edge -> bool
  {
    (e: Edge) => e.tail !in onPlane && e.head !in onPlane
  }

  /** `intersectCandidates`: the edges with neither endpoint on the plane,
      in boundary order. */
  function Candidates(p: Polygon, plane: Plane): (r: seq<Edge>)
    ensures |r| <= |p|
    ensures forall e :: e in r <==>
      e in GetEdges(p) && !IsOnPlane(e.tail, plane) && !IsOnPlane(e.head, plane)
    ensures ReadsAt(r, GetEdges(p), Positions(GetEdges(p), OffPlane(plane)))
  {
    var edges := GetEdges(p);
    var onPlane := PointsOnPlane(p, plane);
    forall e | e in edges
      ensures e.tail in p && e.head in p
    {
      EdgeEndpointsInPolygon(p, e);
    }
    assert forall k :: 0 <= k < |edges| ==> Untouched(onPlane)(edges[k]) == OffPlane(plane)(edges[k]);
    FilterInOrder(edges, Untouched(onPlane));
    PositionsAgree(edges, Untouched(onPlane), OffPlane(plane));
    Filter(edges, Untouched(onPlane))
  }

  /** Where the plane's line meets the line through `e`, kept only within
      the edge's closed x-span. */
  function Crossing(e: Edge, plane: Plane): (r: Option<Vertex>)
    ensures r.Some? ==> IsOnPlane(r.value, plane) && IsOnPlane(r.value, e) && !OutsideXSpan(r.value, e)
    ensures r.None? <==> Intersection(e, plane).None? || OutsideXSpan(Intersection(e, plane).value, e)
  {
    match Intersection(e, plane)
    case None => None
    case Some(x) =>
      if OutsideXSpan(x, e) then None
      else
        IntersectionOnBothLines(e, plane);
        Some(x)
  }

  /** The edge has a crossing: the test `.filter(i => i)` applies after the map. */
  function HasCrossing(plane: Plane): Edge -> bool
  {
    (e: Edge) => Crossing(e, plane).Some?
  }

  /** `newVertices`: the crossings of the candidate edges, in edge order:
      the k-th point is the crossing of the k-th edge that has one. */
  function CrossingPoints(edges: seq<Edge>, plane: Plane): (r: seq<Vertex>)
    ensures |r| <= |edges|
    ensures forall v :: v in r <==> exists e :: e in edges && Crossing(e, plane) == Some(v)
    ensures CrossingsAt(r, edges, plane)
    decreases |edges|
  {
    if |edges| == 0 then []
    else
      var n := |edges| - 1;
      var front := CrossingPoints(edges[..n], plane);
      assert forall e :: e in edges <==> e in edges[..n] || e == edges[n];
      CrossingsAtExtend(front, edges, plane);
      match Crossing(edges[n], plane)
      case None => front
      case Some(x) => front + [x]
  }

  /** `r` holds, in edge order, the crossing of every edge that has one:
      its k-th point is the crossing of the k-th such edge. */
  ghost predicate CrossingsAt(r: seq<Vertex>, edges: seq<Edge>, plane: Plane)
  {
    var idx := Positions(edges, HasCrossing(plane));
    && |r| == |idx|
    && forall k :: 0 <= k < |r| ==> idx[k] < |edges| && Crossing(edges[idx[k]], plane) == Some(r[k])
  }

  /** The crossings of all but the last edge, followed by the last edge's
      crossing if it has one, are the crossings of all the edges. */
  lemma CrossingsAtExtend(front: seq<Vertex>, edges: seq<Edge>, plane: Plane)
    requires |edges| > 0
    requires CrossingsAt(front, edges[..|edges| - 1], plane)
    ensures var last := Crossing(edges[|edges| - 1], plane);
      CrossingsAt(if last.Some? then front + [last.value] else front, edges, plane)
  {
    var n := |edges| - 1;
    var before := Positions(edges[..n], HasCrossing(plane));
    var all := Positions(edges, HasCrossing(plane));
    var last := Crossing(edges[n], plane);
    var r := if last.Some? then front + [last.value] else front;
    assert HasCrossing(plane)(edges[n]) == last.Some?;
    assert all == if last.Some? then before + [n] else before;
    forall k | 0 <= k < |r|
      ensures all[k] < |edges| && Crossing(edges[all[k]], plane) == Some(r[k])
    {
      if k < |before| {
        assert all[k] == before[k];
        assert edges[..n][before[k]] == edges[before[k]];
        assert r[k] == front[k];
      }
    }
  }

  /** One side's polygon: its strict vertices, then its assigned on-plane
      vertices, then every crossing point. */
  function SidePolygon(p: Polygon, plane: Plane, side: Side): Polygon
  {
    var t := WithIndices(p);
    Points(SideVertices(t, plane, side)) + Points(AssignedTo(t, plane, side))
      + CrossingPoints(Candidates(p, plane), plane)
  }

  /** The root-level `splitPolygon(p, plane)`. */
  function ProtoSplitPolygon(p: Polygon, plane: Plane): (r: ProtoSplitResult)
    ensures (forall v :: v in p ==> !IsLeftOfPlane(v, plane)) ==> r == ProtoSplitResult(None, Some(p))
    ensures (exists v :: v in p && IsLeftOfPlane(v, plane)) && (forall v :: v in p ==> !IsRightOfPlane(v, plane))
      ==> r == ProtoSplitResult(Some(p), None)
    ensures (exists v :: v in p && IsLeftOfPlane(v, plane)) && (exists v :: v in p && IsRightOfPlane(v, plane))
      ==> r == ProtoSplitResult(Some(SidePolygon(p, plane, Left)), Some(SidePolygon(p, plane, Right)))
  {
    var t := WithIndices(p);
    var leftVertices := SideVertices(t, plane, Left);
    var rightVertices := SideVertices(t, plane, Right);
    ProtoSidesMatchPolygon(p, plane);
    if |leftVertices| == 0 then ProtoSplitResult(None, Some(p))
    else if |rightVertices| == 0 then ProtoSplitResult(Some(p), None)
    else ProtoSplitResult(Some(SidePolygon(p, plane, Left)), Some(SidePolygon(p, plane, Right)))
  }

  /** A side of the tagged polygon is empty exactly when no vertex of the
      polygon lies on that side. */
  lemma ProtoSidesMatchPolygon(p: Polygon, plane: Plane)
    ensures |SideVertices(WithIndices(p), plane, Left)| == 0 <==> forall v :: v in p ==> !IsLeftOfPlane(v, plane)
    ensures |SideVertices(WithIndices(p), plane, Right)| == 0 <==> forall v :: v in p ==> !IsRightOfPlane(v, plane)
  {
    TaggedSideEmptyIff(p, plane, Left);
    TaggedSideEmptyIff(p, plane, Right);
  }

  /** The tagged vertices on `side` are empty exactly when the polygon has
      no vertex on `side`. */
  lemma TaggedSideEmptyIff(p: Polygon, plane: Plane, side: Side)
    ensures |SideVertices(WithIndices(p), plane, side)| == 0 <==> forall v :: v in p ==> Classify(v, plane) != side
  {
    var t := WithIndices(p);
    if |SideVertices(t, plane, side)| == 0 {
      forall v | v in p
        ensures Classify(v, plane) != side
      {
        var i :| 0 <= i < |p| && p[i] == v;
        assert Tagged(v, i) in t;
      }
    } else {
      var x := SideVertices(t, plane, side)[0];
      assert x in SideVertices(t, plane, side);
      assert x.point in p;
    }
  }

  lemma PointFrom(s: seq<Tagged>, v: Vertex)
    requires v in Points(s)
    ensures exists x :: x in s && x.point == v
  {
    var k :| 0 <= k < |s| && Points(s)[k] == v;
    assert s[k] in s;
  }

  /** Every vertex of the polygon lying on `side` lands in that side's
      polygon. */
  lemma ProtoSideKeepsOwnVertices(p: Polygon, plane: Plane, side: Side)
    ensures forall v :: v in p && Classify(v, plane) == side ==> v in SidePolygon(p, plane, side)
  {
    var t := WithIndices(p);
    var strict := SideVertices(t, plane, side);
    forall v | v in p && Classify(v, plane) == side
      ensures v in SidePolygon(p, plane, side)
    {
      var i :| 0 <= i < |p| && p[i] == v;
      assert Tagged(v, i) in strict;
      var k :| 0 <= k < |strict| && strict[k] == Tagged(v, i);
      assert Points(strict)[k] == v;
    }
  }

  /** A side's polygon holds only that side's vertices and points on the
      plane, so nothing from the opposite side. */
  lemma ProtoSideHoldsNothingOpposite(p: Polygon, plane: Plane, side: Side)
    requires side == Left || side == Right
    ensures forall v :: v in SidePolygon(p, plane, side) ==>
      (v in p && Classify(v, plane) == side) || IsOnPlane(v, plane)
    ensures forall v :: v in SidePolygon(p, plane, side) ==> Classify(v, plane) != Opposite(side)
  {
    var t := WithIndices(p);
    var strict := Points(SideVertices(t, plane, side));
    var onSide := Points(AssignedTo(t, plane, side));
    var crossings := CrossingPoints(Candidates(p, plane), plane);
    StrictPointsOnSide(p, plane, side);
    AssignedPointsOnPlane(p, plane, side);
    assert forall v :: v in crossings ==> IsOnPlane(v, plane);
    assert SidePolygon(p, plane, side) == strict + onSide + crossings;
  }

  /** The strict part of a side's polygon holds vertices on that side. */
  lemma StrictPointsOnSide(p: Polygon, plane: Plane, side: Side)
    ensures forall v :: v in Points(SideVertices(WithIndices(p), plane, side)) ==>
      v in p && Classify(v, plane) == side
  {
    var vs := SideVertices(WithIndices(p), plane, side);
    forall v | v in Points(vs)
      ensures v in p && Classify(v, plane) == side
    {
      PointFrom(vs, v);
    }
  }

  /** The assigned part of a side's polygon holds on-plane vertices. */
  lemma AssignedPointsOnPlane(p: Polygon, plane: Plane, side: Side)
    ensures forall v :: v in Points(AssignedTo(WithIndices(p), plane, side)) ==> IsOnPlane(v, plane)
  {
    var vs := AssignedTo(WithIndices(p), plane, side);
    forall v | v in Points(vs)
      ensures IsOnPlane(v, plane)
    {
      PointFrom(vs, v);
    }
  }

  /** Both side polygons end with the same crossing points. */
  lemma ProtoSidesShareCrossings(p: Polygon, plane: Plane)
    requires (exists v :: v in p && IsLeftOfPlane(v, plane)) && (exists v :: v in p && IsRightOfPlane(v, plane))
    ensures var r := ProtoSplitPolygon(p, plane);
      var c := CrossingPoints(Candidates(p, plane), plane);
      && |r.left.value| >= |c| && r.left.value[|r.left.value| - |c|..] == c
      && |r.right.value| >= |c| && r.right.value[|r.right.value| - |c|..] == c
  {
    ProtoSidesMatchPolygon(p, plane);
    assert ProtoSplitPolygon(p, plane) == ProtoSplitResult(Some(SidePolygon(p, plane, Left)), Some(SidePolygon(p, plane, Right)));
    SidePolygonEndsWithCrossings(p, plane, Left);
    SidePolygonEndsWithCrossings(p, plane, Right);
  }

  lemma SidePolygonEndsWithCrossings(p: Polygon, plane: Plane, side: Side)
    ensures var s := SidePolygon(p, plane, side);
      var c := CrossingPoints(Candidates(p, plane), plane);
      |s| >= |c| && s[|s| - |c|..] == c
  {
    var t := WithIndices(p);
    var front := Points(SideVertices(t, plane, side)) + Points(AssignedTo(t, plane, side));
    var c := CrossingPoints(Candidates(p, plane), plane);
    assert SidePolygon(p, plane, side) == front + c;
    assert (front + c)[|front|..] == c;
  }

  /** Without wrap-around, an on-plane first vertex is never assigned to
      the side of the last vertex, although the closing edge joins them:
      only the vertex at index 1 can make it a neighbour. */
  lemma ProtoFirstVertexNotNextToLast(p: Polygon, plane: Plane, side: Side)
    requires |p| >= 3
    requires IsOnPlane(p[0], plane)
    requires Classify(p[|p| - 1], plane) == side && Classify(p[1], plane) != side
    ensures Edge(p[|p| - 1], p[0]) in GetEdges(p)
    ensures Tagged(p[0], 0) !in AssignedTo(WithIndices(p), plane, side)
  {
    assert GetEdges(p)[|p| - 1] == Edge(p[|p| - 1], p[0]);
  }
}

=== FILE: refine.dfy ===
/** The first stage of splitting: walk the boundary and insert the points
    where the partition line crosses an edge, then drop repeated vertices. */
module Refine {
  import opened Wrappers
  import opened Geometry
  import opened Seqs
  import opened Edges

  /** The vertices of the polygon that lie on the plane (`pointsOnPlane`). */
  function PointsOnPlane(p: Polygon, plane: Plane): (r: seq<Vertex>)
    ensures forall v :: v in r <==> v in p && IsOnPlane(v, plane)
  {
    Filter(p, v => IsOnPlane(v, plane))
  }

  /** True when the candidate point lies strictly left of both endpoints or
      strictly right of both: outside the edge's closed x-span. The y
      coordinate is not consulted. */
  predicate OutsideXSpan(point: Vertex, e: Edge)
  {
    || (point.x < e.tail.x && point.x < e.head.x)
    || (point.x > e.tail.x && point.x > e.head.x)
  }

  /** The vertices one edge contributes before flattening: its two endpoints,
      or, when it is subdivided, the endpoints around the crossing point
      (which appears twice, once per half-edge). An edge touching `onPlane`
      is never a candidate. */
  function EdgePieces(e: Edge, plane: Plane, onPlane: seq<Vertex>): (r: seq<Vertex>)
    ensures |r| == 2 || |r| == 4
    ensures r[0] == e.tail && r[|r| - 1] == e.head
    ensures |r| == 4 ==> e.tail !in onPlane && e.head !in onPlane
    ensures |r| == 4 ==> r[1] == r[2] && IsOnPlane(r[1], plane) && IsOnPlane(r[1], e)
    ensures |r| == 4 ==> !OutsideXSpan(r[1], e)
  {
    var isIntersectCandidate := e.tail !in onPlane && e.head !in onPlane;
    if !isIntersectCandidate then [e.tail, e.head]
    else
      match Intersection(e, plane)
      case None => [e.tail, e.head]
      case Some(x) =>
        if OutsideXSpan(x, e) then [e.tail, e.head]
        else
          IntersectionOnBothLines(e, plane);
          [e.tail, x, x, e.head]
  }

  /** `flattenDepth(getEdges(p).map(...), 2)`: every edge's pieces, in edge order. */
  function FlatPieces(p: Polygon, plane: Plane): seq<Vertex>
  {
    var edges := GetEdges(p);
    var onPlane := PointsOnPlane(p, plane);
    Concat(seq(|edges|, i requires 0 <= i < |edges| => EdgePieces(edges[i], plane, onPlane)))
  }

  lemma {:induction false} ConcatFirst<T>(parts: seq<seq<T>>)
    requires |parts| > 0 && |parts[0]| > 0
    ensures |Concat(parts)| > 0 && Concat(parts)[0] == parts[0][0]
    decreases |parts|
  {
    if |parts| > 1 {
      ConcatFirst(parts[..|parts| - 1]);
    }
  }

  /** The pieces of the edges of `p`, one part per edge. */
  function PieceParts(p: Polygon, plane: Plane): (parts: seq<seq<Vertex>>)
    ensures |parts| == |GetEdges(p)|
    ensures forall i :: 0 <= i < |parts| ==> parts[i] == EdgePieces(GetEdges(p)[i], plane, PointsOnPlane(p, plane))
    ensures Concat(parts) == FlatPieces(p, plane)
  {
    var edges := GetEdges(p);
    var onPlane := PointsOnPlane(p, plane);
    seq(|edges|, i requires 0 <= i < |edges| => EdgePieces(edges[i], plane, onPlane))
  }

  /** Every vertex of the polygon is among the flattened pieces. */
  lemma FlatPiecesKeepVertices(p: Polygon, plane: Plane)
    ensures forall v :: v in p ==> v in FlatPieces(p, plane)
  {
    var parts := PieceParts(p, plane);
    forall v | v in p
      ensures v in FlatPieces(p, plane)
    {
      var i :| 0 <= i < |p| && p[i] == v;
      assert parts[i][0] == v;
      ConcatMembers(parts, v);
    }
  }

  /** The flattened pieces add only points on the plane. */
  lemma FlatPiecesAddOnlyPlanePoints(p: Polygon, plane: Plane)
    ensures forall v :: v in FlatPieces(p, plane) ==> v in p || IsOnPlane(v, plane)
  {
    var edges := GetEdges(p);
    var parts := PieceParts(p, plane);
    forall v | v in FlatPieces(p, plane)
      ensures v in p || IsOnPlane(v, plane)
    {
      ConcatMembers(parts, v);
      var j :| 0 <= j < |parts| && v in parts[j];
      PieceMember(edges[j], plane, PointsOnPlane(p, plane), v);
      assert edges[j] in edges;
      EdgeEndpointsInPolygon(p, edges[j]);
    }
  }

  /** A piece of an edge is one of its endpoints or a point on the plane. */
  lemma PieceMember(e: Edge, plane: Plane, onPlane: seq<Vertex>, v: Vertex)
    requires v in EdgePieces(e, plane, onPlane)
    ensures v == e.tail || v == e.head || IsOnPlane(v, plane)
  {
    var r := EdgePieces(e, plane, onPlane);
    var k :| 0 <= k < |r| && r[k] == v;
  }

  /** `v` is the point inserted into some subdivided edge of `p`. */
  ghost predicate IsInsertedCrossing(p: Polygon, plane: Plane, v: Vertex)
  {
    var parts := PieceParts(p, plane);
    exists i :: 0 <= i < |parts| && |parts[i]| == 4 && v == parts[i][1]
  }

  /** The members of one edge's pieces: its endpoints and, when it is
      subdivided, the crossing point. */
  lemma PartMembers(part: seq<Vertex>, v: Vertex)
    requires |part| == 2 || |part| == 4
    requires |part| == 4 ==> part[1] == part[2]
    ensures v in part <==> v == part[0] || v == part[|part| - 1] || (|part| == 4 && v == part[1])
  {
    if |part| == 4 {
      assert part == [part[0], part[1], part[1], part[3]];
    } else {
      assert part == [part[0], part[1]];
    }
  }

  /** The flattened pieces are exactly the polygon's vertices and the
      crossing points of the subdivided edges. */
  lemma FlatPiecesExactly(p: Polygon, plane: Plane)
    ensures forall v :: v in FlatPieces(p, plane) <==> v in p || IsInsertedCrossing(p, plane, v)
  {
    var parts := PieceParts(p, plane);
    FlatPiecesKeepVertices(p, plane);
    forall v
      ensures v in FlatPieces(p, plane) <==> v in p || IsInsertedCrossing(p, plane, v)
    {
      ConcatMembers(parts, v);
      if v in FlatPieces(p, plane) {
        var j :| 0 <= j < |parts| && v in parts[j];
        PartMembers(parts[j], v);
        assert parts[j][0] == p[j] && parts[j][|parts[j]| - 1] == p[Next(j, |p|)];
      }
      if IsInsertedCrossing(p, plane, v) {
        var i :| 0 <= i < |parts| && |parts[i]| == 4 && v == parts[i][1];
        assert v in parts[i];
      }
    }
  }

  /** The flattened pieces hold every polygon vertex and, besides those,
      only points on the plane; the first piece is the first vertex. Their
      members are exactly the vertices and the inserted crossings. */
  lemma FlatPiecesContents(p: Polygon, plane: Plane)
    ensures forall v :: v in p ==> v in FlatPieces(p, plane)
    ensures forall v :: v in FlatPieces(p, plane) ==> v in p || IsOnPlane(v, plane)
    ensures forall v :: v in FlatPieces(p, plane) <==> v in p || IsInsertedCrossing(p, plane, v)
    ensures |p| > 0 ==> |FlatPieces(p, plane)| > 0 && FlatPieces(p, plane)[0] == p[0]
  {
    FlatPiecesExactly(p, plane);
    FlatPiecesAddOnlyPlanePoints(p, plane);
    if |p| > 0 {
      var parts := PieceParts(p, plane);
      assert parts[0][0] == p[0];
      ConcatFirst(parts);
    }
  }

  /** The refined boundary (`polygonWithIntersections`): the polygon with the
      crossing points inserted and repeated vertices removed. It keeps every
      original vertex, adds only points on the plane, and exactly the
      crossings of the subdivided edges, repeats nothing and starts where
      the polygon starts. */
  function RefinePolygon(p: Polygon, plane: Plane): (r: Polygon)
    ensures forall v :: v in p ==> v in r
    ensures forall v :: v in r ==> v in p || IsOnPlane(v, plane)
    ensures forall v :: v in r <==> v in p || IsInsertedCrossing(p, plane, v)
    ensures forall a, b :: 0 <= a < b < |r| ==> r[a] != r[b]
    ensures |p| > 0 ==> r[0] == p[0]
  {
    FlatPiecesContents(p, plane);
    Dedup(FlatPieces(p, plane))
  }

  /** No two vertices of the polygon coincide. */
  ghost predicate DistinctVertices(p: Polygon)
  {
    forall a, b :: 0 <= a < b < |p| ==> p[a] != p[b]
  }

  /** No inserted crossing lands on a vertex of the polygon. One can where
      the boundary touches itself, or where a vertical edge's line meets the
      plane at another vertex, since the y coordinate is never checked. */
  ghost predicate CrossingsOffVertices(p: Polygon, plane: Plane)
  {
    var parts := PieceParts(p, plane);
    forall i :: 0 <= i < |parts| && |parts[i]| == 4 ==> parts[i][1] !in p
  }

  /** The pieces of the first `k` edges. */
  function PiecesUpTo(p: Polygon, plane: Plane, k: nat): seq<Vertex>
    requires k <= |p|
  {
    Concat(PieceParts(p, plane)[..k])
  }

  /** Among the vertices of `p`, `f` holds none past vertex `k`. */
  ghost predicate OnlyVerticesUpTo(f: seq<Vertex>, p: Polygon, k: nat)
  {
    forall v :: v in f && v in p ==> FirstIndex(p, v) <= k
  }

  /** `f` holds every vertex of `p` up to vertex `k`. */
  ghost predicate HoldsVerticesUpTo(f: seq<Vertex>, p: Polygon, k: nat)
  {
    forall b :: 0 <= b < |p| && b <= k ==> p[b] in f
  }

  /** The vertices of `p` up to vertex `k` first occur in `f` in their
      order around `p`. */
  ghost predicate VerticesInOrder(f: seq<Vertex>, p: Polygon, k: nat)
  {
    forall a, b :: 0 <= a < b < |p| && b <= k && p[a] in f && p[b] in f ==>
      FirstIndex(f, p[a]) < FirstIndex(f, p[b])
  }

  /** A vertex of `p` among the pieces of edge `i` is one of its endpoints. */
  lemma PartVertex(p: Polygon, plane: Plane, i: nat, v: Vertex)
    requires CrossingsOffVertices(p, plane)
    requires i < |p| && v in PieceParts(p, plane)[i] && v in p
    ensures v == p[i] || v == p[Next(i, |p|)]
  {
    var part := PieceParts(p, plane)[i];
    assert part[0] == p[i] && part[|part| - 1] == p[Next(i, |p|)];
    assert |part| == 4 ==> part[1] == part[2] && part[1] !in p;
    EndpointsOnly(part, p, v);
  }

  /** A piece `[a, b]` or `[a, x, x, b]` whose inserted point `x` is not in
      `p` meets `p` only at its ends. */
  lemma EndpointsOnly(part: seq<Vertex>, p: Polygon, v: Vertex)
    requires |part| == 2 || |part| == 4
    requires |part| == 4 ==> part[1] == part[2] && part[1] !in p
    requires v in part && v in p
    ensures v == part[0] || v == part[|part| - 1]
  {
    if |part| == 4 {
      assert part == [part[0], part[1], part[1], part[3]];
    } else {
      assert part == [part[0], part[1]];
    }
  }

  /** The pieces of the first `k` edges are those of the first `k - 1`
      followed by edge `k - 1`'s. */
  lemma PiecesUpToStep(p: Polygon, plane: Plane, k: nat)
    requires 0 < k <= |p|
    ensures PiecesUpTo(p, plane, k) == PiecesUpTo(p, plane, k - 1) + PieceParts(p, plane)[k - 1]
  {
    var parts := PieceParts(p, plane);
    assert parts[..k][..k - 1] == parts[..k - 1];
  }

  /** Edge `k - 1` brings in vertex `k - 1` and the next vertex, and no other. */
  lemma StepVertices(p: Polygon, plane: Plane, k: nat)
    requires DistinctVertices(p) && CrossingsOffVertices(p, plane)
    requires 0 < k <= |p|
    requires OnlyVerticesUpTo(PiecesUpTo(p, plane, k - 1), p, k - 1)
    requires k > 1 ==> HoldsVerticesUpTo(PiecesUpTo(p, plane, k - 1), p, k - 1)
    ensures OnlyVerticesUpTo(PiecesUpTo(p, plane, k), p, k)
    ensures HoldsVerticesUpTo(PiecesUpTo(p, plane, k), p, k)
  {
    var part := PieceParts(p, plane)[k - 1];
    PiecesUpToStep(p, plane, k);
    forall v | v in part && v in p
      ensures FirstIndex(p, v) <= k
    {
      PartVertex(p, plane, k - 1, v);
      if v == p[k - 1] {
        FirstIndexOfDistinct(p, k - 1);
      } else {
        FirstIndexOfDistinct(p, Next(k - 1, |p|));
      }
    }
    AppendKeepsOnly(PiecesUpTo(p, plane, k - 1), part, p, k);
    AppendKeepsHolds(PiecesUpTo(p, plane, k - 1), part, p, k);
  }

  /** Appending a piece with no vertex past `k` keeps `OnlyVerticesUpTo`. */
  lemma AppendKeepsOnly(prev: seq<Vertex>, part: seq<Vertex>, p: Polygon, k: nat)
    requires 0 < k
    requires OnlyVerticesUpTo(prev, p, k - 1)
    requires forall v :: v in part && v in p ==> FirstIndex(p, v) <= k
    ensures OnlyVerticesUpTo(prev + part, p, k)
  {
  }

  /** Appending the piece of edge `k - 1`, which starts at vertex `k - 1` and
      ends at the next one, extends `HoldsVerticesUpTo` to `k`. */
  lemma AppendKeepsHolds(prev: seq<Vertex>, part: seq<Vertex>, p: Polygon, k: nat)
    requires 0 < k <= |p|
    requires k > 1 ==> HoldsVerticesUpTo(prev, p, k - 1)
    requires |part| > 0 && part[0] == p[k - 1] && part[|part| - 1] == p[Next(k - 1, |p|)]
    ensures HoldsVerticesUpTo(prev + part, p, k)
  {
    forall b | 0 <= b < |p| && b <= k
      ensures p[b] in prev + part
    {
      if b < k - 1 {
        assert p[b] in prev;
      } else if b == k - 1 {
        assert (prev + part)[|prev|] == p[b];
      } else {
        assert (prev + part)[|prev| + |part| - 1] == p[b];
      }
    }
  }

  /** The vertex edge `k - 1` adds, `k`, first occurs after every earlier one. */
  lemma StepOrder(p: Polygon, plane: Plane, k: nat)
    requires DistinctVertices(p) && CrossingsOffVertices(p, plane)
    requires 0 < k <= |p|
    requires OnlyVerticesUpTo(PiecesUpTo(p, plane, k - 1), p, k - 1)
    requires k > 1 ==> HoldsVerticesUpTo(PiecesUpTo(p, plane, k - 1), p, k - 1)
    requires VerticesInOrder(PiecesUpTo(p, plane, k - 1), p, k - 1)
    ensures VerticesInOrder(PiecesUpTo(p, plane, k), p, k)
  {
    forall a, b | 0 <= a < b < |p| && b <= k && p[a] in PiecesUpTo(p, plane, k) && p[b] in PiecesUpTo(p, plane, k)
      ensures FirstIndex(PiecesUpTo(p, plane, k), p[a]) < FirstIndex(PiecesUpTo(p, plane, k), p[b])
    {
      StepOrderPair(p, plane, k, a, b);
    }
  }

  /** In a polygon with distinct vertices, vertex `j` first occurs at `j`. */
  lemma FirstIndexOfDistinct(p: Polygon, j: nat)
    requires DistinctVertices(p) && j < |p|
    ensures FirstIndex(p, p[j]) == j
  {
  }

  lemma StepOrderPair(p: Polygon, plane: Plane, k: nat, a: nat, b: nat)
    requires DistinctVertices(p)
    requires 0 < k <= |p| && a < b < |p| && b <= k
    requires OnlyVerticesUpTo(PiecesUpTo(p, plane, k - 1), p, k - 1)
    requires k > 1 ==> HoldsVerticesUpTo(PiecesUpTo(p, plane, k - 1), p, k - 1)
    requires VerticesInOrder(PiecesUpTo(p, plane, k - 1), p, k - 1)
    requires p[a] in PiecesUpTo(p, plane, k) && p[b] in PiecesUpTo(p, plane, k)
    ensures FirstIndex(PiecesUpTo(p, plane, k), p[a]) < FirstIndex(PiecesUpTo(p, plane, k), p[b])
  {
    var f := PiecesUpTo(p, plane, k - 1);
    var part := PieceParts(p, plane)[k - 1];
    PiecesUpToStep(p, plane, k);
    if b < k {
      assert p[a] in f && p[b] in f;
      OldPairOrder(f, part, p[a], p[b]);
    } else if k > 1 {
      FirstIndexOfDistinct(p, b);
      NewVertexOrder(p, f, part, a, b);
    } else {
      assert f == [];
      assert part[0] == p[0];
      FirstVertexOrder(p, part, a, b);
    }
  }

  /** Two vertices both present before the step keep their order. */
  lemma OldPairOrder(f: seq<Vertex>, part: seq<Vertex>, x: Vertex, y: Vertex)
    requires x in f && y in f && FirstIndex(f, x) < FirstIndex(f, y)
    ensures FirstIndex(f + part, x) < FirstIndex(f + part, y)
  {
    FirstIndexAppendOrder(f, part, x, y);
  }

  /** The vertex brought in by the step comes after one already present. */
  lemma NewVertexOrder(p: Polygon, f: seq<Vertex>, part: seq<Vertex>, a: nat, b: nat)
    requires a < b < |p| && FirstIndex(p, p[b]) == b
    requires OnlyVerticesUpTo(f, p, b - 1) && p[a] in f
    requires p[b] in f + part
    ensures FirstIndex(f + part, p[a]) < FirstIndex(f + part, p[b])
  {
    assert p[b] !in f;
    FirstIndexNewcomerLast(f, part, p[a], p[b]);
  }

  /** The pieces of edge 0 start at vertex 0, so vertex 0 comes first. */
  lemma FirstVertexOrder(p: Polygon, part: seq<Vertex>, a: nat, b: nat)
    requires DistinctVertices(p) && a < b < |p| && a == 0
    requires |part| > 0 && part[0] == p[0]
    requires p[a] in [] + part && p[b] in [] + part
    ensures FirstIndex([] + part, p[a]) < FirstIndex([] + part, p[b])
  {
    assert [] + part == part;
    assert p[b] != p[0];
  }

  /** The pieces of the first `k` edges hold exactly the vertices up to
      `k` (from `k = 1` on), and they first occur in order. */
  lemma {:induction false} PiecesUpToOrder(p: Polygon, plane: Plane, k: nat)
    requires DistinctVertices(p) && CrossingsOffVertices(p, plane)
    requires k <= |p|
    ensures OnlyVerticesUpTo(PiecesUpTo(p, plane, k), p, k)
    ensures k > 0 ==> HoldsVerticesUpTo(PiecesUpTo(p, plane, k), p, k)
    ensures VerticesInOrder(PiecesUpTo(p, plane, k), p, k)
    decreases k
  {
    if k > 0 {
      PiecesUpToOrder(p, plane, k - 1);
      StepVertices(p, plane, k);
      StepOrder(p, plane, k);
    } else {
      assert PiecesUpTo(p, plane, 0) == [];
    }
  }

  /** Within the pieces of the first `k + 1` edges, a crossing inserted on
      edge `k` that no earlier edge produced first occurs right after vertex
      `k`, and before vertex `k + 1`. */
  lemma CrossingBetweenInPieces(p: Polygon, plane: Plane, k: nat)
    requires DistinctVertices(p) && CrossingsOffVertices(p, plane)
    requires k < |p| && |PieceParts(p, plane)[k]| == 4
    requires PieceParts(p, plane)[k][1] !in PiecesUpTo(p, plane, k)
    ensures var g := PiecesUpTo(p, plane, k + 1);
      var x := PieceParts(p, plane)[k][1];
      && p[k] in g && x in g && FirstIndex(g, p[k]) < FirstIndex(g, x)
      && (k + 1 < |p| ==> p[k + 1] in g && FirstIndex(g, x) < FirstIndex(g, p[k + 1]))
  {
    var g0 := PiecesUpTo(p, plane, k);
    var part := PieceParts(p, plane)[k];
    var x := part[1];
    PiecesUpToStep(p, plane, k + 1);
    assert part == [p[k], x, x, p[Next(k, |p|)]];
    assert x !in p;
    if k + 1 < |p| {
      PiecesUpToOrder(p, plane, k);
      FirstIndexOfDistinct(p, k + 1);
      assert p[k + 1] !in g0;
    }
    SubdividedStepOrder(g0, p[k], x, p[Next(k, |p|)]);
  }

  /** Appending the pieces `v, x, x, w` of a subdivided edge to `g0`, which
      lacks `x`: `x` first occurs after `v`, and before `w` when `w` is new. */
  lemma SubdividedStepOrder(g0: seq<Vertex>, v: Vertex, x: Vertex, w: Vertex)
    requires x !in g0 && x != v
    ensures var g := g0 + [v, x, x, w];
      && v in g && x in g && FirstIndex(g, v) < FirstIndex(g, x)
      && (w !in g0 && w != v && w != x ==> FirstIndex(g, x) < FirstIndex(g, w))
  {
    var g := g0 + [v, x, x, w];
    assert g[|g0|] == v && g[|g0| + 1] == x && g[|g0| + 2] == x && g[|g0| + 3] == w;
    FirstIndexAfter(g0, [v, x, x, w], x);
    if w !in g0 && w != v && w != x {
      FirstIndexAfter(g0, [v, x, x, w], w);
    }
  }

  /** For a polygon with distinct vertices, no crossing of which lands on a
      vertex, a crossing inserted on edge `k` that no earlier edge produced
      sits in the refined boundary after vertex `k` and, unless `k` is the
      closing edge, before vertex `k + 1`. */
  lemma RefinePlacesCrossing(p: Polygon, plane: Plane, k: nat)
    requires DistinctVertices(p) && CrossingsOffVertices(p, plane)
    requires k < |p| && |PieceParts(p, plane)[k]| == 4
    requires PieceParts(p, plane)[k][1] !in PiecesUpTo(p, plane, k)
    ensures var r := RefinePolygon(p, plane);
      var x := PieceParts(p, plane)[k][1];
      && x in r && FirstIndex(r, p[k]) < FirstIndex(r, x)
      && (k + 1 < |p| ==> FirstIndex(r, x) < FirstIndex(r, p[k + 1]))
  {
    var parts := PieceParts(p, plane);
    var g := PiecesUpTo(p, plane, k + 1);
    var x := parts[k][1];
    CrossingBetweenInPieces(p, plane, k);
    ConcatSplit(parts, k + 1);
    var rest := Concat(parts[k + 1..]);
    var f := FlatPieces(p, plane);
    assert f == g + rest;
    assert RefinePolygon(p, plane) == Dedup(f);
    FirstIndexAppendOrder(g, rest, p[k], x);
    DedupKeepsOrder(f, p[k], x);
    if k + 1 < |p| {
      FirstIndexAppendOrder(g, rest, x, p[k + 1]);
      DedupKeepsOrder(f, x, p[k + 1]);
    }
  }

  /** For a polygon with distinct vertices, no crossing of which lands on a
      vertex, refinement keeps the original vertices in their order around
      the boundary: vertex `a` comes before vertex `b` whenever `a < b`. */
  lemma RefineKeepsVertexOrder(p: Polygon, plane: Plane)
    requires DistinctVertices(p) && CrossingsOffVertices(p, plane)
    ensures forall a, b :: 0 <= a < b < |p| ==>
      FirstIndex(RefinePolygon(p, plane), p[a]) < FirstIndex(RefinePolygon(p, plane), p[b])
  {
    var parts := PieceParts(p, plane);
    PiecesUpToOrder(p, plane, |p|);
    assert parts[..|p|] == parts;
    var f := FlatPieces(p, plane);
    assert PiecesUpTo(p, plane, |p|) == f;
    assert RefinePolygon(p, plane) == Dedup(f);
    forall a, b | 0 <= a < b < |p|
      ensures FirstIndex(Dedup(f), p[a]) < FirstIndex(Dedup(f), p[b])
    {
      DedupKeepsOrder(f, p[a], p[b]);
    }
  }

  /** For an edge of the polygon, the `includes` test on `pointsOnPlane` is
      the on-plane test of its endpoints, so an edge is subdivided exactly
      when neither endpoint is on the plane, the lines meet, and the meeting
      point is within the edge's closed x-span. */
  lemma SubdividedIff(p: Polygon, plane: Plane, e: Edge)
    requires e in GetEdges(p)
    ensures |EdgePieces(e, plane, PointsOnPlane(p, plane))| == 4 <==>
      && !IsOnPlane(e.tail, plane) && !IsOnPlane(e.head, plane)
      && Intersection(e, plane).Some?
      && !OutsideXSpan(Intersection(e, plane).value, e)
  {
    EdgeEndpointsInPolygon(p, e);
  }

  lemma ScaleBetween(lambda: real, d: real)
    requires 0.0 <= lambda <= 1.0
    ensures d >= 0.0 ==> 0.0 <= lambda * d <= d
    ensures d <= 0.0 ==> d <= lambda * d <= 0.0
  {
    assert d - lambda * d == (1.0 - lambda) * d;
  }

  /** A point on the line through a non-vertical edge and within its x-span
      is within its y-span too, so it lies on the segment. */
  lemma OnLineWithinXSpanIsOnSegment(e: Edge, point: Vertex)
    requires e.head.x != e.tail.x
    requires IsOnPlane(point, e)
    requires !OutsideXSpan(point, e)
    ensures (e.tail.y <= point.y <= e.head.y) || (e.head.y <= point.y <= e.tail.y)
  {
    var dx := e.head.x - e.tail.x;
    var dy := e.head.y - e.tail.y;
    var lambda := (point.x - e.tail.x) / dx;
    assert lambda * dx == point.x - e.tail.x;
    if dx > 0.0 {
      assert 0.0 <= point.x - e.tail.x <= dx;
    } else {
      assert dx <= point.x - e.tail.x <= 0.0;
    }
    assert 0.0 <= lambda <= 1.0;
    assert dx * (point.y - e.tail.y) == (point.x - e.tail.x) * dy;
    assert dx * (point.y - e.tail.y) == dx * (lambda * dy);
    assert point.y - e.tail.y == lambda * dy;
    ScaleBetween(lambda, dy);
  }

  /** Subdividing a non-vertical edge puts the new vertex on the segment. */
  lemma SubdivisionOfSlopedEdgeOnSegment(e: Edge, plane: Plane, onPlane: seq<Vertex>)
    requires e.head.x != e.tail.x
    requires |EdgePieces(e, plane, onPlane)| == 4
    ensures var v := EdgePieces(e, plane, onPlane)[1];
      (e.tail.y <= v.y <= e.head.y) || (e.head.y <= v.y <= e.tail.y)
  {
    OnLineWithinXSpanIsOnSegment(e, EdgePieces(e, plane, onPlane)[1]);
  }

  /** An edge whose endpoints are off `onPlane` and whose line meets the
      plane within its x-span is cut at the meeting point. */
  lemma EdgePiecesAtCrossing(e: Edge, plane: Plane, onPlane: seq<Vertex>, x: Vertex)
    requires e.tail !in onPlane && e.head !in onPlane
    requires Intersection(e, plane) == Some(x)
    requires !OutsideXSpan(x, e)
    ensures EdgePieces(e, plane, onPlane) == [e.tail, x, x, e.head]
  {
  }

  /** The vertical line `x = 5` meets the x axis at (5, 0). */
  lemma VerticalMeetsAxis(e: Edge, plane: Plane)
    requires e == Edge(Vertex(5.0, 1.0), Vertex(5.0, 2.0))
    requires plane == Edge(Vertex(0.0, 0.0), Vertex(1.0, 0.0))
    ensures Intersection(e, plane) == Some(Vertex(5.0, 0.0))
  {
    assert SlopeInterceptForm(e) == Vertical;
    assert SlopeInterceptForm(plane) == Sloped(0.0, 0.0);
  }

  /** Only x is checked, so a vertical edge is subdivided wherever the line
      crosses its extension: here at (5, 0), below the segment from (5, 1)
      to (5, 2). */
  lemma VerticalEdgeSubdividedOffSegment()
    ensures var e := Edge(Vertex(5.0, 1.0), Vertex(5.0, 2.0));
      var pieces := EdgePieces(e, Edge(Vertex(0.0, 0.0), Vertex(1.0, 0.0)), []);
      && pieces == [e.tail, Vertex(5.0, 0.0), Vertex(5.0, 0.0), e.head]
      && !(e.tail.y <= pieces[1].y <= e.head.y)
  {
    var plane := Edge(Vertex(0.0, 0.0), Vertex(1.0, 0.0));
    var e := Edge(Vertex(5.0, 1.0), Vertex(5.0, 2.0));
    VerticalMeetsAxis(e, plane);
    EdgePiecesAtCrossing(e, plane, [], Vertex(5.0, 0.0));
  }
}

=== FILE: seqs.dfy ===
/** Sequence utilities standing in for the lodash and Array helpers the
    source uses (`filter`, `uniqWith`, `flattenDepth`). */
module Seqs {

  /** `Array.prototype.filter`: the elements satisfying `f`, in order. */
  function Filter<T(!new)>(s: seq<T>, f: T -> bool): (r: seq<T>)
    ensures |r| <= |s|
    ensures forall x :: x in r <==> x in s && f(x)
  {
    if |s| == 0 then []
    else (if f(s[0]) then [s[0]] else []) + Filter(s[1..], f)
  }

  /** `r` reads, in order, the elements of `s` at the ascending positions
      `idx`: it is a subsequence of `s` picked out by `idx`. */
  ghost predicate ReadsAt<T>(r: seq<T>, s: seq<T>, idx: seq<nat>)
  {
    && |r| == |idx|
    && (forall k :: 0 <= k < |idx| ==> idx[k] < |s| && r[k] == s[idx[k]])
    && (forall a, b :: 0 <= a < b < |idx| ==> idx[a] < idx[b])
  }

  /** The positions of `s` whose elements satisfy `f`, in ascending order:
      a position is listed exactly when its element passes. */
  function Positions<T>(s: seq<T>, f: T -> bool): (idx: seq<nat>)
    ensures forall k :: 0 <= k < |idx| ==> idx[k] < |s| && f(s[idx[k]])
    ensures forall i :: 0 <= i < |s| && f(s[i]) ==> i in idx
    ensures forall a, b :: 0 <= a < b < |idx| ==> idx[a] < idx[b]
    decreases |s|
  {
    if |s| == 0 then []
    else
      var n := |s| - 1;
      var front := Positions(s[..n], f);
      if f(s[n]) then front + [n] else front
  }

  /** The first listed position is the first passing one. */
  lemma PositionsFirst<T>(s: seq<T>, f: T -> bool)
    requires |Positions(s, f)| > 0
    ensures forall j :: 0 <= j < Positions(s, f)[0] ==> !f(s[j])
  {
  }

  /** Two tests that agree on every element pick the same positions. */
  lemma {:induction false} PositionsAgree<T>(s: seq<T>, f: T -> bool, g: T -> bool)
    requires forall k :: 0 <= k < |s| ==> f(s[k]) == g(s[k])
    ensures Positions(s, f) == Positions(s, g)
    decreases |s|
  {
    if |s| > 0 {
      var n := |s| - 1;
      assert forall k :: 0 <= k < n ==> s[..n][k] == s[k];
      PositionsAgree(s[..n], f, g);
    }
  }

  /** Filtering a concatenation filters each part. */
  lemma {:induction false} FilterAppend<T(!new)>(a: seq<T>, b: seq<T>, f: T -> bool)
    ensures Filter(a + b, f) == Filter(a, f) + Filter(b, f)
    decreases |a|
  {
    if |a| > 0 {
      assert (a + b)[1..] == a[1..] + b;
      FilterAppend(a[1..], b, f);
    } else {
      assert a + b == b;
    }
  }

  /** `filter` keeps the passing elements in their original order: it reads
      `s` at exactly the passing positions. */
  lemma {:induction false} FilterInOrder<T(!new)>(s: seq<T>, f: T -> bool)
    ensures ReadsAt(Filter(s, f), s, Positions(s, f))
    decreases |s|
  {
    if |s| > 0 {
      var n := |s| - 1;
      var front := s[..n];
      FilterInOrder(front, f);
      assert s == front + [s[n]];
      FilterAppend(front, [s[n]], f);
      assert Filter([s[n]], f) == if f(s[n]) then [s[n]] else [];
      ReadsAtPrefix(Filter(front, f), s, Positions(front, f), n);
      if f(s[n]) {
        assert Filter(s, f) == Filter(front, f) + [s[n]];
        assert Positions(s, f) == Positions(front, f) + [n];
        ReadsAtSnoc(Filter(front, f), s, Positions(front, f), n);
      } else {
        assert Filter(s, f) == Filter(front, f);
      }
    }
  }

  /** A subsequence of a prefix is a subsequence of the whole, at positions
      inside the prefix. */
  lemma ReadsAtPrefix<T>(r: seq<T>, s: seq<T>, idx: seq<nat>, n: nat)
    requires n <= |s| && ReadsAt(r, s[..n], idx)
    ensures ReadsAt(r, s, idx)
    ensures forall k :: 0 <= k < |idx| ==> idx[k] < n
  {
  }

  /** Reading one more position beyond all earlier ones extends the subsequence. */
  lemma ReadsAtSnoc<T>(r: seq<T>, s: seq<T>, idx: seq<nat>, n: nat)
    requires n < |s| && ReadsAt(r, s, idx)
    requires forall k :: 0 <= k < |idx| ==> idx[k] < n
    ensures ReadsAt(r + [s[n]], s, idx + [n])
  {
  }

  /** The first position at which `x` occurs in `s`. */
  function FirstIndex<T(==)>(s: seq<T>, x: T): (i: nat)
    requires x in s
    ensures i < |s| && s[i] == x
    ensures forall j :: 0 <= j < i ==> s[j] != x
  {
    if s[0] == x then 0 else 1 + FirstIndex(s[1..], x)
  }

  /** Appending does not move the first occurrence of an element already present. */
  lemma FirstIndexAppend<T>(s: seq<T>, t: seq<T>, x: T)
    requires x in s
    ensures x in s + t && FirstIndex(s + t, x) == FirstIndex(s, x)
  {
    var i := FirstIndex(s, x);
    assert (s + t)[i] == x;
    var k := FirstIndex(s + t, x);
    assert k <= i;
    assert s[k] == (s + t)[k];
  }

  /** An element first appearing in the appended part occurs after all of `s`. */
  lemma FirstIndexAfter<T>(s: seq<T>, t: seq<T>, x: T)
    requires x !in s && x in t
    ensures x in s + t && FirstIndex(s + t, x) >= |s|
  {
    var j :| 0 <= j < |t| && t[j] == x;
    assert (s + t)[|s| + j] == x;
  }

  /** Appending keeps the order of first occurrences of elements already present. */
  lemma FirstIndexAppendOrder<T>(s: seq<T>, t: seq<T>, x: T, y: T)
    requires x in s && y in s && FirstIndex(s, x) < FirstIndex(s, y)
    ensures x in s + t && y in s + t && FirstIndex(s + t, x) < FirstIndex(s + t, y)
  {
    FirstIndexAppend(s, t, x);
    FirstIndexAppend(s, t, y);
  }

  /** An element first brought in by the appended part comes after every
      element already present. */
  lemma FirstIndexNewcomerLast<T>(s: seq<T>, t: seq<T>, x: T, y: T)
    requires x in s && y !in s && y in t
    ensures x in s + t && y in s + t && FirstIndex(s + t, x) < FirstIndex(s + t, y)
  {
    FirstIndexAppend(s, t, x);
    FirstIndexAfter(s, t, y);
  }

  /** `_.uniqWith(s, _.isEqual)`: the first occurrence of every element, in
      order of first occurrence. */
  function Dedup<T(==,!new)>(s: seq<T>): (r: seq<T>)
    ensures forall x :: x in r <==> x in s
    ensures forall a, b :: 0 <= a < b < |r| ==> r[a] != r[b]
    ensures |s| > 0 ==> |r| > 0 && r[0] == s[0]
    ensures forall a, b :: 0 <= a < b < |r| ==> FirstIndex(s, r[a]) < FirstIndex(s, r[b])
    decreases |s|
  {
    if |s| == 0 then []
    else
      var front := s[..|s| - 1];
      var d := Dedup(front);
      assert forall x :: x in s <==> x in front || x == s[|s| - 1];
      assert s == front + [s[|s| - 1]];
      DedupFirstIndices(front, s[|s| - 1], d);
      if s[|s| - 1] in d then d else d + [s[|s| - 1]]
  }

  /** Removing repeats keeps the order of first occurrences. */
  lemma DedupKeepsOrder<T(!new)>(s: seq<T>, x: T, y: T)
    requires x in s && y in s && FirstIndex(s, x) < FirstIndex(s, y)
    ensures x in Dedup(s) && y in Dedup(s) && FirstIndex(Dedup(s), x) < FirstIndex(Dedup(s), y)
  {
    var r := Dedup(s);
    var i, j := FirstIndex(r, x), FirstIndex(r, y);
    assert FirstIndex(s, r[i]) < FirstIndex(s, r[j]);
  }

  /** The first occurrences in `front` stay first occurrences once `last`
      is appended, and a new `last` comes after all of them. */
  lemma DedupFirstIndices<T>(front: seq<T>, last: T, d: seq<T>)
    requires forall x :: x in d <==> x in front
    ensures forall x :: x in d ==> FirstIndex(front + [last], x) == FirstIndex(front, x)
    ensures last !in front ==> FirstIndex(front + [last], last) == |front|
  {
    forall x | x in d
      ensures FirstIndex(front + [last], x) == FirstIndex(front, x)
    {
      FirstIndexAppend(front, [last], x);
    }
    if last !in front {
      FirstIndexAfter(front, [last], last);
    }
  }

  /** One level of `flatten`: the concatenation of the parts, in order. */
  function Concat<T>(parts: seq<seq<T>>): (r: seq<T>)
    decreases |parts|
  {
    if |parts| == 0 then []
    else Concat(parts[..|parts| - 1]) + parts[|parts| - 1]
  }

  /** Every element of every part occurs in the concatenation, and nothing else. */
  lemma {:induction false} ConcatMembers<T>(parts: seq<seq<T>>, x: T)
    ensures x in Concat(parts) <==> exists j :: 0 <= j < |parts| && x in parts[j]
    decreases |parts|
  {
    if |parts| > 0 {
      var front := parts[..|parts| - 1];
      ConcatMembers(front, x);
      if x in Concat(front) {
        var j :| 0 <= j < |front| && x in front[j];
        assert parts[j] == front[j];
      }
      if exists j :: 0 <= j < |parts| && x in parts[j] {
        var j :| 0 <= j < |parts| && x in parts[j];
        if j < |parts| - 1 {
          assert front[j] == parts[j];
        }
      }
    }
  }

  /** Appending to one part adds exactly that element to the multiset of the
      concatenation. */
  lemma {:induction false} ConcatUpdateAppend<T>(parts: seq<seq<T>>, j: nat, x: T)
    requires j < |parts|
    ensures multiset(Concat(parts[j := parts[j] + [x]]))
         == multiset(Concat(parts)) + multiset{x}
    decreases |parts|
  {
    var n := |parts|;
    var upd := parts[j := parts[j] + [x]];
    assert upd[..n - 1] == if j == n - 1 then parts[..n - 1] else parts[..n - 1][j := parts[j] + [x]];
    if j < n - 1 {
      ConcatUpdateAppend(parts[..n - 1], j, x);
    }
  }

  /** The concatenation of the parts splits at any part boundary. */
  lemma {:induction false} ConcatSplit<T>(parts: seq<seq<T>>, n: nat)
    requires n <= |parts|
    ensures Concat(parts) == Concat(parts[..n]) + Concat(parts[n..])
    decreases |parts|
  {
    if n < |parts| {
      var m := |parts| - 1;
      var front := parts[..m];
      ConcatSplit(front, n);
      assert front[..n] == parts[..n];
      assert parts[n..][..|parts[n..]| - 1] == front[n..];
    } else {
      assert parts[..n] == parts;
      assert parts[n..] == [];
    }
  }

  /** The positions `0 .. k-1` in order. */
  function Range(k: nat): (r: seq<nat>)
    ensures |r| == k
    ensures forall i :: 0 <= i < k ==> r[i] == i
  {
    seq(k, i requires 0 <= i => i)
  }

  lemma RangeStep(k: nat)
    ensures Range(k + 1) == Range(k) + [k]
  {
  }
}

=== FILE: sides.dfy ===
/** The middle stage of splitting: tag every refined vertex with its index,
    classify it, give the on-plane vertices to a side, and order each side by
    index (`_.orderBy(..., "i", "asc")`). */
module Sides {
  import opened Wrappers
  import opened Geometry
  import opened Seqs

  /** A refined vertex with its index in the refined boundary (`{ point, i }`). */
  datatype Tagged = Tagged(point: Vertex, i: nat)

  /** Indices strictly increase along the sequence. */
  predicate StrictlyIncreasing(s: seq<Tagged>)
  {
    forall a, b :: 0 <= a < b < |s| ==> s[a].i < s[b].i
  }

  /** Filtering keeps the relative order of the survivors. */
  lemma FilterKeepsOrder(s: seq<Tagged>, f: Tagged -> bool)
    ensures StrictlyIncreasing(s) ==> StrictlyIncreasing(Filter(s, f))
  {
    var r := Filter(s, f);
    var idx := Positions(s, f);
    FilterInOrder(s, f);
    if StrictlyIncreasing(s) {
      forall a, b | 0 <= a < b < |r|
        ensures r[a].i < r[b].i
      {
        assert r[a] == s[idx[a]] && r[b] == s[idx[b]] && idx[a] < idx[b];
      }
    }
  }

  /** `withIndices`: each vertex paired with its index. A tagged vertex
      belongs to the result exactly when its index is in range and its point
      is the vertex stored there. */
  function WithIndices(r: Polygon): (t: seq<Tagged>)
    ensures |t| == |r|
    ensures forall x :: x in t <==> x.i < |r| && x.point == r[x.i]
    ensures StrictlyIncreasing(t)
  {
    var t := seq(|r|, k requires 0 <= k < |r| => Tagged(r[k], k));
    assert forall x: Tagged :: x.i < |r| && x.point == r[x.i] ==> t[x.i] == x;
    t
  }

  /** The points of a tagged sequence (`map(p => p.point)`). */
  function Points(s: seq<Tagged>): (r: seq<Vertex>)
    ensures |r| == |s|
    ensures forall k :: 0 <= k < |s| ==> r[k] == s[k].point
  {
    seq(|s|, k requires 0 <= k < |s| => s[k].point)
  }

  function Abs(n: int): nat
  {
    if n < 0 then -n else n
  }

  /** The predicate `hasAdjacentPoint` hands to `find`. It does not depend on
      `v` in its second disjunct: it compares the queried index with the
      length it is given. */
  predicate AdjacentTest(v: Tagged, point: Tagged, totalVertices: int)
  {
    Abs(v.i - point.i) == 1 || point.i == totalVertices - 1
  }

  /** `vertices.find(...)`: the first vertex passing the test. */
  function FindAdjacent(vertices: seq<Tagged>, point: Tagged, totalVertices: int): (r: Option<Tagged>)
    ensures r.Some? ==> r.value in vertices && AdjacentTest(r.value, point, totalVertices)
    ensures r.None? ==> forall v :: v in vertices ==> !AdjacentTest(v, point, totalVertices)
  {
    if |vertices| == 0 then None
    else if AdjacentTest(vertices[0], point, totalVertices) then Some(vertices[0])
    else FindAdjacent(vertices[1..], point, totalVertices)
  }

  /** `hasAdjacentPoint(vertices, point, totalVertices)`: some vertex sits at
      index distance exactly one, or the queried index is `totalVertices - 1`
      and there is any vertex at all. Indices 0 and `totalVertices - 1` are
      not treated as neighbours. */
  function HasAdjacentPoint(vertices: seq<Tagged>, point: Tagged, totalVertices: int): (b: bool)
    ensures b <==>
      || (exists v :: v in vertices && Abs(v.i - point.i) == 1)
      || (point.i == totalVertices - 1 && |vertices| > 0)
  {
    var r := FindAdjacent(vertices, point, totalVertices);
    assert |vertices| > 0 ==> vertices[0] in vertices;
    r.Some?
  }

  /** The caller passes the ORIGINAL polygon length while the indices come
      from the refined boundary, which is longer once a crossing point is
      inserted. With 4 original vertices and 5 refined ones, index 3 counts
      as adjacent to a vertex at index 0, while index 4 (the true last
      vertex, next to index 0 around the loop) does not. */
  lemma HasAdjacentPointUsesOriginalLength(v: Vertex, w: Vertex)
    ensures HasAdjacentPoint([Tagged(v, 0)], Tagged(w, 3), 4)
    ensures !HasAdjacentPoint([Tagged(v, 0)], Tagged(w, 4), 4)
  {
    assert AdjacentTest(Tagged(v, 0), Tagged(w, 3), 4);
  }

  /** The vertices of `t` whose point classifies as `side`. */
  function SideVertices(t: seq<Tagged>, plane: Plane, side: Side): (r: seq<Tagged>)
    ensures forall x :: x in r <==> x in t && Classify(x.point, plane) == side
    ensures StrictlyIncreasing(t) ==> StrictlyIncreasing(r)
  {
    var f := (x: Tagged) => Classify(x.point, plane) == side;
    FilterKeepsOrder(t, f);
    Filter(t, f)
  }

  /** `assignLeft` / `assignRight`: on-plane vertices present in the original
      polygon that have an adjacent vertex on `side`. */
  function Assigned(p: Polygon, t: seq<Tagged>, plane: Plane, side: Side): (r: seq<Tagged>)
    ensures forall x :: x in r <==>
      && x in t && IsOnPlane(x.point, plane) && x.point in p
      && HasAdjacentPoint(SideVertices(t, plane, side), x, |p|)
    ensures StrictlyIncreasing(t) ==> StrictlyIncreasing(r)
  {
    var sideVertices := SideVertices(t, plane, side);
    var f := (x: Tagged) => x.point in p && HasAdjacentPoint(sideVertices, x, |p|);
    FilterKeepsOrder(SideVertices(t, plane, On), f);
    Filter(SideVertices(t, plane, On), f)
  }

  /** `newVertices`: on-plane vertices that are not in the original polygon,
      i.e. the crossing points added by refinement. */
  function NewVertices(p: Polygon, t: seq<Tagged>, plane: Plane): (r: seq<Tagged>)
    ensures forall x :: x in r <==> x in t && IsOnPlane(x.point, plane) && x.point !in p
    ensures StrictlyIncreasing(t) ==> StrictlyIncreasing(r)
  {
    var f := (x: Tagged) => x.point !in p;
    FilterKeepsOrder(SideVertices(t, plane, On), f);
    Filter(SideVertices(t, plane, On), f)
  }

  /** The elements of `s` whose key is `k`, in order. */
  function KeyBlock(s: seq<Tagged>, k: nat): (r: seq<Tagged>)
    ensures forall x :: x in r <==> x in s && x.i == k
  {
    if |s| == 0 then []
    else (if s[0].i == k then [s[0]] else []) + KeyBlock(s[1..], k)
  }

  /** The elements of `s` whose key is below `n`, in order. */
  function Below(s: seq<Tagged>, n: nat): seq<Tagged>
  {
    if |s| == 0 then []
    else (if s[0].i < n then [s[0]] else []) + Below(s[1..], n)
  }

  lemma {:induction false} BelowStep(s: seq<Tagged>, n: nat)
    ensures multiset(Below(s, n + 1)) == multiset(Below(s, n)) + multiset(KeyBlock(s, n))
  {
    if |s| > 0 {
      BelowStep(s[1..], n);
    }
  }

  lemma {:induction false} BelowAll(s: seq<Tagged>, n: nat)
    requires forall x :: x in s ==> x.i < n
    ensures Below(s, n) == s
  {
    if |s| > 0 {
      assert s[0] in s;
      assert forall x :: x in s[1..] ==> x in s;
      BelowAll(s[1..], n);
    }
  }

  /** Indices never decrease along the sequence. */
  predicate Sorted(s: seq<Tagged>)
  {
    forall a, b :: 0 <= a < b < |s| ==> s[a].i <= s[b].i
  }

  /** `_.orderBy(s, "i", "asc")` for keys below `n`: a stable sort by index,
      written as one block per key in ascending key order. */
  function OrderByIndex(s: seq<Tagged>, n: nat): (r: seq<Tagged>)
    ensures forall x :: x in r ==> x in s && x.i < n
    decreases n
  {
    if n == 0 then []
    else OrderByIndex(s, n - 1) + KeyBlock(s, n - 1)
  }

  lemma {:induction false} BelowNone(s: seq<Tagged>)
    ensures Below(s, 0) == []
  {
    if |s| > 0 {
      BelowNone(s[1..]);
    }
  }

  /** The sort is a permutation of the elements with key below `n`. */
  lemma {:induction false} OrderByIndexPermutes(s: seq<Tagged>, n: nat)
    ensures multiset(OrderByIndex(s, n)) == multiset(Below(s, n))
    decreases n
  {
    if n == 0 {
      BelowNone(s);
      assert OrderByIndex(s, 0) == [];
    } else {
      var m := n - 1;
      OrderByIndexPermutes(s, m);
      BelowStep(s, m);
      var front := OrderByIndex(s, m);
      var block := KeyBlock(s, m);
      assert OrderByIndex(s, n) == front + block;
      calc {
        multiset(OrderByIndex(s, n));
        multiset(front + block);
        multiset(front) + multiset(block);
        multiset(Below(s, m)) + multiset(block);
        multiset(Below(s, m + 1));
      }
    }
  }

  /** The sort puts indices in ascending order. */
  lemma {:induction false} OrderByIndexSorted(s: seq<Tagged>, n: nat)
    ensures Sorted(OrderByIndex(s, n))
    decreases n
  {
    if n > 0 {
      OrderByIndexSorted(s, n - 1);
      var front: seq<Tagged> := OrderByIndex(s, n - 1);
      var block: seq<Tagged> := KeyBlock(s, n - 1);
      forall a, b | 0 <= a < b < |front + block|
        ensures (front + block)[a].i <= (front + block)[b].i
      {
        if a >= |front| {
          assert (front + block)[a] in block && (front + block)[b] in block;
        } else if b >= |front| {
          assert front[a] in front;
          assert (front + block)[b] in block;
        }
      }
    }
  }

  /** Sorting every key below `n` keeps all elements. */
  lemma OrderByIndexIsPermutation(s: seq<Tagged>, n: nat)
    requires forall x :: x in s ==> x.i < n
    ensures multiset(OrderByIndex(s, n)) == multiset(s)
    ensures forall x :: x in OrderByIndex(s, n) <==> x in s
  {
    BelowAll(s, n);
    OrderByIndexPermutes(s, n);
    forall x
      ensures x in OrderByIndex(s, n) <==> x in s
    {
      assert x in OrderByIndex(s, n) <==> x in multiset(OrderByIndex(s, n));
    }
  }

  /** No two elements share an index. */
  predicate DistinctIndices(s: seq<Tagged>)
  {
    forall a, b :: 0 <= a < b < |s| ==> s[a].i != s[b].i
  }

  lemma {:induction false} KeyBlockEmpty(s: seq<Tagged>, k: nat)
    requires forall x :: x in s ==> x.i != k
    ensures KeyBlock(s, k) == []
  {
    if |s| > 0 {
      assert s[0] in s;
      KeyBlockEmpty(s[1..], k);
    }
  }

  lemma {:induction false} KeyBlockAtMostOne(s: seq<Tagged>, k: nat)
    requires DistinctIndices(s)
    ensures |KeyBlock(s, k)| <= 1
  {
    if |s| > 0 {
      assert DistinctIndices(s[1..]) by {
        forall a, b | 0 <= a < b < |s[1..]|
          ensures s[1..][a].i != s[1..][b].i
        {
          assert s[1..][a] == s[a + 1] && s[1..][b] == s[b + 1];
        }
      }
      KeyBlockAtMostOne(s[1..], k);
      if s[0].i == k {
        forall x | x in s[1..]
          ensures x.i != k
        {
          var j :| 0 <= j < |s[1..]| && s[1..][j] == x;
          assert s[j + 1] == x;
        }
        KeyBlockEmpty(s[1..], k);
      }
    }
  }

  /** With distinct indices the sort is strict: indices strictly increase. */
  lemma {:induction false} OrderByIndexStrict(s: seq<Tagged>, n: nat)
    requires DistinctIndices(s)
    ensures StrictlyIncreasing(OrderByIndex(s, n))
    decreases n
  {
    if n > 0 {
      OrderByIndexStrict(s, n - 1);
      KeyBlockAtMostOne(s, n - 1);
      var front: seq<Tagged> := OrderByIndex(s, n - 1);
      var block: seq<Tagged> := KeyBlock(s, n - 1);
      forall a, b | 0 <= a < b < |front + block|
        ensures (front + block)[a].i < (front + block)[b].i
      {
        if b >= |front| {
          assert a < |front|;
          assert front[a] in front;
          assert (front + block)[b] in block;
        }
      }
    }
  }

  lemma {:induction false} DistinctAppend(a: seq<Tagged>, b: seq<Tagged>)
    requires DistinctIndices(a) && DistinctIndices(b)
    requires forall x, y :: x in a && y in b ==> x.i != y.i
    ensures DistinctIndices(a + b)
  {
    forall j, k | 0 <= j < k < |a + b|
      ensures (a + b)[j].i != (a + b)[k].i
    {
      if j < |a| && k >= |a| {
        assert (a + b)[j] in a && (a + b)[k] in b;
      }
    }
  }

  /** The side sequence (`left` / `right` before fragmenting): strictly-`side`
      vertices, the assigned on-plane originals and all new vertices,
      ordered by index. */
  function SideSequence(p: Polygon, t: seq<Tagged>, plane: Plane, side: Side): seq<Tagged>
  {
    OrderByIndex(SideParts(p, t, plane, side), |t|)
  }

  function Opposite(side: Side): Side
  {
    match side
    case Left => Right
    case Right => Left
    case On => On
  }

  /** The three parts a side sequence is sorted from. */
  function SideParts(p: Polygon, t: seq<Tagged>, plane: Plane, side: Side): seq<Tagged>
  {
    SideVertices(t, plane, side) + Assigned(p, t, plane, side) + NewVertices(p, t, plane)
  }

  /** The three parts never share an index: each is ordered, and two tagged
      vertices with one index are one vertex, which cannot be both strictly
      on a side and on the plane, nor both original and new. */
  lemma SidePartsDistinct(p: Polygon, r: Polygon, plane: Plane, side: Side)
    requires side != On
    ensures DistinctIndices(SideParts(p, WithIndices(r), plane, side))
    ensures forall x :: x in SideParts(p, WithIndices(r), plane, side) ==> x.i < |r|
  {
    var t := WithIndices(r);
    var sv := SideVertices(t, plane, side);
    var asg := Assigned(p, t, plane, side);
    var nv := NewVertices(p, t, plane);
    assert forall x: Tagged, y: Tagged :: x in t && y in t && x.i == y.i ==> x == y;
    DistinctAppend(sv, asg);
    DistinctAppend(sv + asg, nv);
  }

  /** A side sequence holds exactly the strictly-`side` vertices, the
      on-plane originals with a neighbour on that side and all new vertices,
      each once; none of them lies strictly on the other side. */
  lemma SideSequenceMembers(p: Polygon, r: Polygon, plane: Plane, side: Side)
    requires side != On
    ensures var t := WithIndices(r);
      var s := SideSequence(p, t, plane, side);
      && (forall x :: x in s <==>
           || (x in t && Classify(x.point, plane) == side)
           || (x in t && IsOnPlane(x.point, plane) && x.point in p
               && HasAdjacentPoint(SideVertices(t, plane, side), x, |p|))
           || (x in t && IsOnPlane(x.point, plane) && x.point !in p))
      && (forall x :: x in s ==> Classify(x.point, plane) != Opposite(side))
      && multiset(s) == multiset(SideParts(p, t, plane, side))
  {
    var t := WithIndices(r);
    SidePartsDistinct(p, r, plane, side);
    OrderByIndexIsPermutation(SideParts(p, t, plane, side), |t|);
  }

  /** A side sequence is in strictly ascending index order, so it follows the
      refined boundary and repeats no vertex. */
  lemma SideSequenceOrdered(p: Polygon, r: Polygon, plane: Plane, side: Side)
    requires side != On
    ensures StrictlyIncreasing(SideSequence(p, WithIndices(r), plane, side))
  {
    var t := WithIndices(r);
    SidePartsDistinct(p, r, plane, side);
    OrderByIndexStrict(SideParts(p, t, plane, side), |t|);
  }
}

=== FILE: split.dfy ===
/** `splitPolygon`: the trivial cases, the overlap test on on-plane edges,
    and the dispatch to `collectPolygons` with the expected fragment counts. */
module Split {
  import opened Geometry
  import opened Seqs
  import opened Edges
  import opened Refine
  import opened Sides
  import opened Collect

  /** The fragments on each side of the partition line. */
  datatype SplitResult = SplitResult(left: seq<Polygon>, right: seq<Polygon>)

  function Max(a: real, b: real): real
  {
    if a >= b then a else b
  }

  function Min(a: real, b: real): real
  {
    if a <= b then a else b
  }

  /** `outer`'s y-range strictly contains `inner`'s, or its x-range does. */
  predicate StrictlyContains(outer: Edge, inner: Edge)
  {
    || (Max(outer.tail.y, outer.head.y) > Max(inner.tail.y, inner.head.y)
        && Min(outer.tail.y, outer.head.y) < Min(inner.tail.y, inner.head.y))
    || (Max(outer.tail.x, outer.head.x) > Max(inner.tail.x, inner.head.x)
        && Min(outer.tail.x, outer.head.x) < Min(inner.tail.x, inner.head.x))
  }

  /** `planarEdgesOverlap`: for some edge, some edge of the list (the loops
      also compare an edge with itself) strictly contains it. */
  predicate PlanarEdgesOverlap(edges: seq<Edge>)
  {
    exists a, b :: 0 <= a < |edges| && 0 <= b < |edges| && StrictlyContains(edges[b], edges[a])
  }

  /** Strict containment is irreflexive, so an overlap needs two different
      edges; in particular no list of fewer than two edges overlaps. */
  lemma OverlapNeedsTwoEdges(edges: seq<Edge>)
    ensures PlanarEdgesOverlap(edges) <==>
      exists a, b :: 0 <= a < |edges| && 0 <= b < |edges| && a != b && StrictlyContains(edges[b], edges[a])
    ensures |edges| <= 1 ==> !PlanarEdgesOverlap(edges)
  {
  }

  /** The edges of a side's polygon with both endpoints on the plane. */
  function PlanarEdges(points: Polygon, plane: Plane): (r: seq<Edge>)
    ensures forall e :: e in r <==> e in GetEdges(points) && IsOnPlane(e.tail, plane) && IsOnPlane(e.head, plane)
  {
    Filter(GetEdges(points), (e: Edge) => IsOnPlane(e.tail, plane) && IsOnPlane(e.head, plane))
  }

  /** `Math.floor((onPlane.length - 1) / 2)`. Dafny's division by a positive
      divisor rounds down, as `Math.floor` does, also for a negative
      dividend. */
  function ExpectedFragments(onPlaneCount: nat): int
  {
    (onPlaneCount - 1) / 2
  }

  /** The refined boundary, tagged with indices. */
  function TaggedBoundary(p: Polygon, plane: Plane): seq<Tagged>
  {
    WithIndices(RefinePolygon(p, plane))
  }

  /** The ordered side sequence for `side` (`left` or `right` in the source). */
  function SideSeq(p: Polygon, plane: Plane, side: Side): seq<Tagged>
  {
    SideSequence(p, TaggedBoundary(p, plane), plane, side)
  }

  /** The expected fragment counts handed to `collectPolygons` for the left
      and the right side: the overlapping side (left checked first) gets
      `floor((|onPlane| - 1) / 2)` and the other side 1; with no overlap
      both get 1. `onPlane` counts every refined on-plane vertex, new ones
      included. */
  function ExpectedCounts(p: Polygon, plane: Plane): (counts: (int, int))
  {
    var onPlane := SideVertices(TaggedBoundary(p, plane), plane, On);
    var expected := ExpectedFragments(|onPlane|);
    if PlanarEdgesOverlap(PlanarEdges(Points(SideSeq(p, plane, Left)), plane)) then (expected, 1)
    else if PlanarEdgesOverlap(PlanarEdges(Points(SideSeq(p, plane, Right)), plane)) then (1, expected)
    else (1, 1)
  }

  /** The left and right fragments of `p` against `plane`. The left side
      is empty exactly when no vertex is strictly left; the right side is
      empty exactly when some vertex is strictly left and none strictly
      right. */
  function SplitPolygon(p: Polygon, plane: Plane): (r: SplitResult)
    ensures |r.left| == 0 <==> forall v :: v in p ==> !IsLeftOfPlane(v, plane)
    ensures |r.right| == 0 <==>
      (exists v :: v in p && IsLeftOfPlane(v, plane))
      && (forall v :: v in p ==> !IsRightOfPlane(v, plane))
  {
    var withIndices := TaggedBoundary(p, plane);
    var leftVertices := SideVertices(withIndices, plane, Left);
    var rightVertices := SideVertices(withIndices, plane, Right);
    RefinedSidesMatchOriginal(p, plane, Left);
    RefinedSidesMatchOriginal(p, plane, Right);
    if |leftVertices| == 0 then SplitResult([], [p])
    else if |rightVertices| == 0 then SplitResult([p], [])
    else
      var counts := ExpectedCounts(p, plane);
      SideSeqNonEmpty(p, plane, Left);
      SideSeqNonEmpty(p, plane, Right);
      SplitResult(CollectPolygons(counts.0, SideSeq(p, plane, Left)),
                  CollectPolygons(counts.1, SideSeq(p, plane, Right)))
  }

  /** The refined boundary has a vertex strictly on a side exactly when the
      polygon does: refinement only adds points on the plane. */
  lemma RefinedSidesMatchOriginal(p: Polygon, plane: Plane, side: Side)
    requires side != On
    ensures |SideVertices(TaggedBoundary(p, plane), plane, side)| > 0 <==>
      exists v :: v in p && Classify(v, plane) == side
  {
    if |SideVertices(TaggedBoundary(p, plane), plane, side)| > 0 {
      SideVertexIsOriginal(p, plane, side);
    }
    if exists v :: v in p && Classify(v, plane) == side {
      var v :| v in p && Classify(v, plane) == side;
      OriginalSideVertexTagged(p, plane, side, v);
    }
  }

  /** A refined vertex strictly on a side is a vertex of the polygon. */
  lemma SideVertexIsOriginal(p: Polygon, plane: Plane, side: Side)
    requires side != On
    requires |SideVertices(TaggedBoundary(p, plane), plane, side)| > 0
    ensures exists v :: v in p && Classify(v, plane) == side
  {
    var r := RefinePolygon(p, plane);
    var sv := SideVertices(TaggedBoundary(p, plane), plane, side);
    assert sv[0] in sv;
    assert r[sv[0].i] == sv[0].point;
  }

  /** A vertex of the polygon strictly on a side is tagged among that
      side's refined vertices. */
  lemma OriginalSideVertexTagged(p: Polygon, plane: Plane, side: Side, v: Vertex)
    requires side != On && v in p && Classify(v, plane) == side
    ensures |SideVertices(TaggedBoundary(p, plane), plane, side)| > 0
  {
    var r := RefinePolygon(p, plane);
    var t := TaggedBoundary(p, plane);
    var k :| 0 <= k < |r| && r[k] == v;
    assert Tagged(v, k) in t;
    assert Tagged(v, k) in SideVertices(t, plane, side);
  }

  /** No vertex strictly left: the whole polygon is the single right
      fragment. Otherwise, no vertex strictly right: it is the single left
      fragment. A polygon lying wholly on the plane takes the first case. */
  lemma SplitTrivialCases(p: Polygon, plane: Plane)
    ensures (forall v :: v in p ==> !IsLeftOfPlane(v, plane)) ==>
      SplitPolygon(p, plane) == SplitResult([], [p])
    ensures ((exists v :: v in p && IsLeftOfPlane(v, plane))
             && (forall v :: v in p ==> !IsRightOfPlane(v, plane))) ==>
      SplitPolygon(p, plane) == SplitResult([p], [])
  {
    RefinedSidesMatchOriginal(p, plane, Left);
    RefinedSidesMatchOriginal(p, plane, Right);
  }

  /** Outside the trivial cases both side sequences are non-empty. */
  lemma SideSeqNonEmpty(p: Polygon, plane: Plane, side: Side)
    requires side != On
    requires |SideVertices(TaggedBoundary(p, plane), plane, side)| > 0
    ensures |SideSeq(p, plane, side)| > 0
  {
    var r := RefinePolygon(p, plane);
    var t := TaggedBoundary(p, plane);
    var sv := SideVertices(t, plane, side);
    assert sv[0] in sv;
    SideSequenceMembers(p, r, plane, side);
    assert sv[0] in SideSeq(p, plane, side);
  }

  /** Every point of every fragment cut from a side sequence is the point
      of a vertex of that sequence, so it is not strictly on the other side. */
  lemma FragmentsKeepSide(p: Polygon, plane: Plane, side: Side, n: int)
    requires side != On
    ensures var frags := CollectPolygons(n, SideSeq(p, plane, side));
      forall j, m :: 0 <= j < |frags| && 0 <= m < |frags[j]| ==>
        Classify(frags[j][m], plane) != Opposite(side)
  {
    var s := SideSeq(p, plane, side);
    SideSeqAvoidsOpposite(p, plane, side);
    PointsAvoidSide(s, plane, side);
  }

  /** No vertex of a side sequence is strictly on the opposite side. */
  lemma SideSeqAvoidsOpposite(p: Polygon, plane: Plane, side: Side)
    requires side != On
    ensures forall x :: x in SideSeq(p, plane, side) ==> Classify(x.point, plane) != Opposite(side)
  {
    SideSequenceMembers(p, RefinePolygon(p, plane), plane, side);
  }

  /** The points of tagged vertices none of which is opposite `side` are
      not opposite `side` either. */
  lemma PointsAvoidSide(s: seq<Tagged>, plane: Plane, side: Side)
    requires forall x :: x in s ==> Classify(x.point, plane) != Opposite(side)
    ensures forall v :: v in Points(s) ==> Classify(v, plane) != Opposite(side)
  {
    forall v | v in Points(s)
      ensures Classify(v, plane) != Opposite(side)
    {
      var k :| 0 <= k < |Points(s)| && Points(s)[k] == v;
      assert s[k] in s;
    }
  }

  /** The fragments a split puts on `side`. */
  function Fragments(r: SplitResult, side: Side): seq<Polygon>
  {
    if side == Left then r.left else r.right
  }

  /** Every vertex of every left fragment is strictly left or on the plane,
      and every vertex of every right fragment strictly right or on it: no
      vertex crosses to the wrong side. */
  lemma SplitKeepsSides(p: Polygon, plane: Plane, side: Side)
    requires side != On
    ensures var frags := Fragments(SplitPolygon(p, plane), side);
      forall j, m :: 0 <= j < |frags| && 0 <= m < |frags[j]| ==>
        Classify(frags[j][m], plane) != Opposite(side)
  {
    var t := TaggedBoundary(p, plane);
    if |SideVertices(t, plane, Left)| == 0 || |SideVertices(t, plane, Right)| == 0 {
      OneSidedKeepsSides(p, plane, side);
    } else {
      BisectedKeepsSides(p, plane, side);
    }
  }

  /** In the trivial cases the whole polygon goes to a side none of its
      vertices is opposite to. */
  lemma OneSidedKeepsSides(p: Polygon, plane: Plane, side: Side)
    requires side != On
    requires var t := TaggedBoundary(p, plane);
      |SideVertices(t, plane, Left)| == 0 || |SideVertices(t, plane, Right)| == 0
    ensures var frags := Fragments(SplitPolygon(p, plane), side);
      forall j, m :: 0 <= j < |frags| && 0 <= m < |frags[j]| ==>
        Classify(frags[j][m], plane) != Opposite(side)
  {
    var t := TaggedBoundary(p, plane);
    var empty := if |SideVertices(t, plane, Left)| == 0 then Left else Right;
    RefinedSidesMatchOriginal(p, plane, empty);
    assert SplitPolygon(p, plane) == if empty == Left then SplitResult([], [p]) else SplitResult([p], []);
    WholePolygonKeepsSide(p, plane, side, empty, Fragments(SplitPolygon(p, plane), side));
  }

  /** A polygon with no vertex on side `empty`, given whole to the other
      side or to none: no fragment holds a vertex opposite its side. */
  lemma WholePolygonKeepsSide(p: Polygon, plane: Plane, side: Side, empty: Side, frags: seq<Polygon>)
    requires side != On && empty != On
    requires forall v :: v in p ==> Classify(v, plane) != empty
    requires frags == (if side == empty then [] else [p])
    ensures forall j, m :: 0 <= j < |frags| && 0 <= m < |frags[j]| ==>
      Classify(frags[j][m], plane) != Opposite(side)
  {
    if side != empty {
      assert Opposite(side) == empty;
      forall j, m | 0 <= j < |frags| && 0 <= m < |frags[j]|
        ensures Classify(frags[j][m], plane) != Opposite(side)
      {
        assert frags[j][m] in p;
      }
    }
  }

  /** With vertices on both sides each side's fragments are cut from that
      side's sequence. */
  lemma BisectedKeepsSides(p: Polygon, plane: Plane, side: Side)
    requires side != On
    requires var t := TaggedBoundary(p, plane);
      |SideVertices(t, plane, Left)| > 0 && |SideVertices(t, plane, Right)| > 0
    ensures var frags := Fragments(SplitPolygon(p, plane), side);
      forall j, m :: 0 <= j < |frags| && 0 <= m < |frags[j]| ==>
        Classify(frags[j][m], plane) != Opposite(side)
  {
    var counts := ExpectedCounts(p, plane);
    var n := if side == Left then counts.0 else counts.1;
    assert Fragments(SplitPolygon(p, plane), side) == CollectPolygons(n, SideSeq(p, plane, side));
    FragmentsKeepSide(p, plane, side, n);
  }

  /** Outside the trivial cases: when the left side's on-plane edges overlap,
      the left side is cut with the expected count and the right side stays
      one fragment holding its whole sequence; otherwise the same with the
      sides swapped; and when neither overlaps each side is one fragment. */
  lemma SplitDispatch(p: Polygon, plane: Plane)
    requires exists v :: v in p && IsLeftOfPlane(v, plane)
    requires exists v :: v in p && IsRightOfPlane(v, plane)
    ensures var left := SideSeq(p, plane, Left);
      var right := SideSeq(p, plane, Right);
      var expected := ExpectedFragments(|SideVertices(TaggedBoundary(p, plane), plane, On)|);
      var r := SplitPolygon(p, plane);
      var leftOverlap := PlanarEdgesOverlap(PlanarEdges(Points(left), plane));
      var rightOverlap := PlanarEdgesOverlap(PlanarEdges(Points(right), plane));
      && (leftOverlap ==> r.left == CollectPolygons(expected, left) && r.right == [Points(right)])
      && (!leftOverlap && rightOverlap ==> r.left == [Points(left)] && r.right == CollectPolygons(expected, right))
      && (!leftOverlap && !rightOverlap ==> r.left == [Points(left)] && r.right == [Points(right)])
  {
    RefinedSidesMatchOriginal(p, plane, Left);
    RefinedSidesMatchOriginal(p, plane, Right);
    SideSeqNonEmpty(p, plane, Left);
    SideSeqNonEmpty(p, plane, Right);
    CollectOneIsWhole(SideSeq(p, plane, Left));
    CollectOneIsWhole(SideSeq(p, plane, Right));
    var counts := ExpectedCounts(p, plane);
    assert SplitPolygon(p, plane) == SplitResult(CollectPolygons(counts.0, SideSeq(p, plane, Left)),
                  CollectPolygons(counts.1, SideSeq(p, plane, Right)));
  }

  lemma TriangleHasNoLeftVertex(p: Polygon, plane: Plane)
    requires p == [Vertex(0.0, 0.0), Vertex(0.0, 5.0), Vertex(5.0, 0.0)]
    requires plane == Edge(Vertex(0.0, 5.0), Vertex(0.0, 0.0))
    ensures forall v :: v in p ==> !IsLeftOfPlane(v, plane)
  {
    forall v | v in p
      ensures !IsLeftOfPlane(v, plane)
    {
      assert Determinant(v, plane) == 5.0 * v.x;
      assert v == p[0] || v == p[1] || v == p[2];
    }
  }

  /** The triangle (0,0), (0,5), (5,0) against the line through (0,5) and
      (0,0) has no vertex on the left (every determinant is `5 * x`), so it
      comes back whole on the right. */
  lemma TriangleOnOneSideNotSplit()
    ensures var p := [Vertex(0.0, 0.0), Vertex(0.0, 5.0), Vertex(5.0, 0.0)];
      SplitPolygon(p, Edge(Vertex(0.0, 5.0), Vertex(0.0, 0.0))) == SplitResult([], [p])
  {
    var p := [Vertex(0.0, 0.0), Vertex(0.0, 5.0), Vertex(5.0, 0.0)];
    var plane := Edge(Vertex(0.0, 5.0), Vertex(0.0, 0.0));
    TriangleHasNoLeftVertex(p, plane);
    SplitTrivialCases(p, plane);
  }
}

=== FILE: wrappers.dfy ===
/** Failure-compatible result types shared by the model. */
module Wrappers {

  /** A value that may be absent; the source's `undefined` return. */
  datatype Option<+T> = None | Some(value: T)

  /** Either a value or the reason none could be produced. */
  datatype Result<+T, +E> = Success(value: T) | Failure(error: E) {

    predicate IsFailure() {
      Failure?
    }

    function PropagateFailure<U>(): Result<U, E>
      requires Failure?
    {
      Failure(error)
    }

    function Extract(): T
      requires Success?
    {
      value
    }
  }
}
